=== FILE: README.md ===
# Num: a value type restricted to [1, 10], in three languages

The repository defines one value type, `Num`, an integer-like value that
must lie between 1 and 10. It is written three times:

- in Python (`num.py`): a class that dispatches on the kind of its argument
  (None, str, real number, complex, anything else), rejects NaN and the
  infinities, requires a whole number within `1e-10`, truncates with `int()`
  and range-checks, with an operator layer on top;
- in Java (`numtest.java`): a class with an `int`, a `double` and a `String`
  constructor, each validating slightly differently, int arithmetic,
  comparison methods, `equals`/`hashCode`/`compareTo` and static factories;
- in JavaScript (`basic.js`, copied into `advanced.js`): a constructor
  function that checks the type, NaN and the range only, and a `valueOf` that
  hands the stored number to the language's own operators.

The Dafny model is functional. Validation results are a
`Result<T> = Ok(value) | Err(error)` whose errors are the messages the
sources throw: "Not a Number" (`NotANumber`) and "Out of range" (`OutOfRange`).
It also has Python's operator type errors (`TypeMismatch`), a division by
zero (`DivisionByZero`), and the `OverflowError` Python raises when it
converts a huge int to a float (`Overflow`).

A valid Python or Java value is the subset type `Bounded.Num`
(`1 <= v <= 10`). A JavaScript value is `JsNum.Num`, a real in `[1, 10]`,
because JavaScript stores the number without a whole-number check. Doubles
are `Float = Finite(real) | NaN | PosInf | NegInf`, with exact reals standing
in for finite doubles.

Modules:

- `Results`: errors, `Option`, `Result`.
- `Bounded`: the range constants and `Num`.
- `Numeric`: `Float`, the tolerance `1e-10`, truncation toward zero, and
  overflow to infinity when decimal text is read as a double.
- `Decimal`: decimal digits, whitespace stripping, and the decimal number
  grammar that Python's `float(str)` and Java's `Double.parseDouble` share.
- `PyNum`, `JavaNum`, `JsNum`: the three versions.
- `PyProperties`, `JavaProperties`, `JsProperties`: lemmas about each
  version, and the values each test driver expects.
- `Divergence`: where the versions agree and where they part. Examples:
  - Python stores 2.99999999999 as 2, and Java rejects it.
  - With exact reals, Java accepts 3 + 1e-10, and Python rejects it.
  - JavaScript accepts 5.5, and the other two reject it.
  - Python truncates 10.00000000001 to 10, and JavaScript rejects it.
  - Java's string "NaN" is "Out of range", and the other two call it "Not a Number".

Four places where the repository's own expectations disagree with its code;
the model follows the code:

- The whole-number check at `num.py:113-123` measures the distance to the
  nearest integer, which suggests that integer is the value meant to be
  stored; `num.py` itself only says "whole number", and `num.py:106`
  truncates with `int()` (see Findings).
- The test "TypeError for value 10" at `advanced.js:367-376` expects
  `new Num(10)` to throw. The range check at `advanced.js:7` is inclusive, so
  10 is accepted (`JsProperties.TenIsAccepted`).
- The Python suite's lines labelled `7 // 3` and `7 % 3` at `num.py:464-465`
  divide by `Num(4)` (`PyProperties.MislabelledFloorDivision`).
- The Python suite marks `abs(Num(-5))` and `-Num(5)` at `num.py:569-570`
  with a check mark, but `Num(-5)` is "Out of range", so the block ends in
  the `except` at `num.py:574-576` (`PyProperties.AbsAndNegationExpectationsFail`).

## Model

| member | source | states |
|---|---|---|
| Numeric.Trunc | num.py:106 | `int(x)` rounds toward zero: for `x >= 0` the result is the greatest integer not above `x`, for `x < 0` the least integer not below it |
| Numeric.RoundToDouble | num.py:66 | reading decimal text as a double never gives NaN; the result is infinite exactly when the magnitude reaches the overflow threshold 2^1024 - 2^970, with the sign of the text, and otherwise it is the number itself |
| Decimal.NatToDecimalRoundTrip | num.py:320-322 | the decimal digits `str(n)` renders read back as `n` |
| Decimal.NatToDecimal | num.py:320-322 | `str(n)` of a non-negative int is a non-empty string of digits, a single digit exactly when `n < 10`, with a leading zero only for 0 itself |
| Decimal.MantissaOfDigits | num.py:66 | a digit string without a point is a mantissa that denotes its digits' value |
| Decimal.MantissaStart | num.py:66 | a mantissa that parses starts with a digit or the point |
| Decimal.DecimalStart | num.py:66 | decimal text that parses starts, after its sign, with a digit or the point |
| Decimal.ParseDecimalOfNatural | num.py:63-67 | the decimal number grammar reads the rendering of any natural number back as that number |
| Decimal.Strip | num.py:66 | the stripped text is a slice of the input whose removed prefix and suffix consist of whitespace only, and which neither starts nor ends with whitespace |
| Decimal.SplitSign | num.py:66 | the sign flag is set exactly for a leading `-`; the rest is the text itself or the text after one leading `+` or `-` |
| Decimal.Scale | num.py:66 | `m` times ten to the power `k`: multiplied by 10^k for `k >= 0`, and a value that 10^-k multiplies back to `m` for `k < 0`; never negative for a non-negative `m` |
| Decimal.ParseMantissa | num.py:66 | a mantissa that parses denotes a non-negative value and starts with a digit or the point |
| Decimal.ParseExponent | num.py:66 | an exponent parses exactly when, after an optional sign, it is a non-empty run of digits; its magnitude is the digits' value, and it is negative only after a `-` |
| Decimal.ParseDecimal | num.py:66 | a nonzero value that parses is negative exactly when the text starts with `-` |
| PyNum.RoundIsNearest | num.py:113-123 | `round` lands on a nearest integer, so `abs(v - round(v))` is the distance to the nearest integer whichever way ties break |
| PyNum.IsWholeNumber | num.py:113-123 | the whole-number check holds exactly when the distance to the nearest integer is below `1e-10` |
| PyNum.Round | num.py:123 | `round(x)` lies within one half of `x`, and at exactly one half it is the even neighbour |
| PyNum.ParseFloat | num.py:66 | `float(text)` is NaN exactly for `nan` in any case after an optional sign, and the signed infinity for `inf`/`infinity` in any case; decimal text that parses gives its value, or the signed infinity past the overflow threshold; nothing else parses; a finite result is the value of the decimal text and an infinite one comes from a name or from overflow |
| PyNum.DecimalIsNoName | num.py:66 | decimal text that parses is never spelled `nan`, `inf` or `infinity`, so the spelled-out values and the numbers do not overlap |
| PyNum.ParseFloatOfNatural | num.py:66 | `float(str(n))` is `n` read as a double |
| PyNum.CheckWholeInRange | num.py:101-111 | a finite value is accepted exactly when it is within `1e-10` of an integer and its truncation lies in [1, 10]; the stored value is the truncation; "Not a Number" exactly when the whole-number check fails, "Out of range" otherwise |
| PyNum.CheckWholeInRangeRounded | num.py:101-111 | the corrected check: success exactly when the value is within the tolerance of an integer and its rounding is in [1, 10], storing an integer less than the tolerance away; "Not a Number" exactly when the whole-number check fails |
| PyNum.ValidateNumeric | num.py:84-111 | an int is accepted exactly when it lies in [1, 10] and is then stored unchanged; an int whose magnitude reaches 2^1024 - 2^970 raises the OverflowError of `math.isnan`; NaN and the infinities are "Not a Number"; a float goes through the whole-number, truncation and range checks in that order |
| PyNum.Construct | num.py:45-82 | None and other objects are "Not a Number"; an int is accepted exactly in [1, 10] as itself; a non-finite float is "Not a Number"; an accepted float is stored truncated; a complex with a nonzero imaginary part is "Not a Number", and one with a zero imaginary part is judged exactly as its real part; only an int can overflow; no other error arises |
| PyNum.FromString | num.py:63-69 | an unparsable string is "Not a Number"; a parsed string is judged exactly as the float it parses to, so "Out of range" passes through the `except` clause unchanged |
| PyNum.FromInt | num.py:372-386 | `from_int` accepts exactly [1, 10], storing the int; otherwise "Out of range", or the overflow error for an int too large for a float |
| PyNum.FromFloat | num.py:388-402 | `from_float` accepts exactly the finite floats within tolerance of an integer whose truncation is in [1, 10]; the stored value is the truncation; "Not a Number" exactly for non-finite or non-whole input |
| PyNum.IsValidValue | num.py:404-419 | as written: the answer is construction's success, and an error escapes exactly when construction overflows, because only TypeError is caught |
| PyNum.IsValidValueTotal | num.py:404-419 | as documented: true exactly when construction succeeds; for an int, exactly when it lies in [1, 10] |
| PyNum.GetMinValue | num.py:421-424 | the minimum is accepted by construction and the int below it is not |
| PyNum.GetMaxValue | num.py:426-429 | the maximum is accepted by construction and the int above it is not |
| PyNum.Str | num.py:320-322 | `str(n)` is the bare decimal digits of `n`, with no sign, point or leading zero, and construction reads it back as `n` |
| PyNum.StrRoundTrip | num.py:320-322 | constructing a Num from the decimal digits of a valid value gives that value |
| PyNum.ToInt | num.py:328-330 | `int(n)` is an int that construction maps back to `n` |
| PyNum.ToFloat | num.py:332-334 | `float(n)` is a whole number that construction maps back to `n`, so it is `n` itself |
| PyNum.Bool | num.py:336-338 | `bool(n)` is true for every valid instance |
| PyNum.AbsNum | num.py:340-342 | `abs(n)` always succeeds with the same value |
| PyNum.Negate | num.py:344-346 | `-n` fails with "Out of range" for every valid instance |
| PyNum.Positive | num.py:348-350 | `+n` always succeeds with the same value |
| PyNum.Copy | num.py:352-354 | `copy()` always succeeds with the same value |
| PyNum.Add | num.py:125-137 | fails exactly for a non-Num operand, with "Can only add Num instances"; otherwise the exact sum, between 2 and 20, not validated into the range |
| PyNum.Subtract | num.py:139-151 | fails exactly for a non-Num operand; otherwise the exact difference, between -9 and 9 |
| PyNum.Multiply | num.py:153-165 | fails exactly for a non-Num operand; otherwise the exact product, between 1 and 100 |
| PyNum.TrueDivide | num.py:167-184 | fails exactly for a non-Num operand; otherwise the quotient, which times the divisor gives the dividend: the zero-divisor guard never fires |
| PyNum.FloorDivide | num.py:186-203 | fails exactly for a non-Num operand; otherwise the `q` with `q*b <= a < (q+1)*b` |
| PyNum.Modulo | num.py:205-222 | fails exactly for a non-Num operand; otherwise a remainder in `[0, b)` |
| PyNum.FloorDivInt | num.py:203 | Python's int `//`: the `q` with `q*b <= a < (q+1)*b` for a positive divisor, and the mirrored bounds for a negative one |
| PyNum.FloorModInt | num.py:222 | Python's int `%`: the remainder that completes `a == (a//b)*b + a%b`, in `[0, b)` for a positive divisor and in `(b, 0]` for a negative one |
| PyNum.Pow | num.py:224-236 | fails exactly for a non-Num operand; otherwise the exact power `a ** b`, at least the base and not validated into the range |
| PyProperties.PowIsRepeatedMultiplication | num.py:224-236 | `a ** 1` is `a`, `a ** 2` is `a * a`, and raising the exponent by one multiplies the power by `a` |
| PyProperties.PowOfSum | num.py:224-236 | `a ** (j + k) == (a ** j) * (a ** k)` for valid exponents |
| PyProperties.PowLeavesTheRange | num.py:224-236 | `Num(10) ** Num(10)` is ten billion and `Num(2) ** Num(4)` is 16: the power is not validated into the range |
| PyNum.Less | num.py:238-250 | fails exactly for a non-Num operand, with "Can only compare Num instances"; otherwise integer `<` |
| PyNum.LessEq | num.py:252-264 | fails exactly for a non-Num operand; otherwise integer `<=` |
| PyNum.Greater | num.py:266-278 | fails exactly for a non-Num operand; otherwise integer `>` |
| PyNum.GreaterEq | num.py:280-292 | fails exactly for a non-Num operand; otherwise integer `>=` |
| PyNum.Equal | num.py:294-306 | false for a non-Num operand instead of an error; otherwise value equality |
| PyNum.NotEqual | num.py:308-318 | exactly the negation of `==` |
| PyProperties.OrderingIsConsistent | num.py:238-306 | exactly one of `<`, `==`, `>` holds; `<=` and `>=` are the unions; `a < b` is `b > a`; `==` is symmetric |
| PyProperties.ForeignOperand | num.py:125-318 | with a non-Num operand every arithmetic and ordering operator raises TypeError, `==` is false and `!=` true |
| PyProperties.DivisionIdentity | num.py:186-222 | for valid instances `a == (a//b)*b + a%b`, `a//b` is the floor of `a/b`, and no zero-divisor guard fires |
| PyProperties.FloorOfQuotient | num.py:186-203 | the `q` that brackets `a` between `q*b` and `(q+1)*b` is the floor of the exact quotient `a/b` |
| PyProperties.ValidValueAcceptedFromEveryKind | num.py:45-82 | a valid value is accepted with itself as the stored value as an int, a float, a complex with zero imaginary part and its string |
| PyProperties.DecimalStringActsAsInt | num.py:63-73 | the decimal string of a natural number that a float can hold is judged exactly as that int, so "11" gives "Out of range" |
| PyProperties.FractionIsNotANumber | num.py:101-109 | 3.14, 11.5 and -0.5 are "Not a Number": the whole-number check precedes the range check |
| PyProperties.NonNumbersAreNotANumber | num.py:59-60 | NaN, the infinities, None, other objects and complex numbers with a nonzero (or NaN) imaginary part are "Not a Number" |
| PyProperties.TruncationBelowInteger | num.py:101-111 | 2.99999999999 is stored as 2, although 2 is farther than the tolerance from it; 0.99999999999 is "Out of range"; 10.00000000001 is stored as 10 |
| PyProperties.RoundedCheckOnWitnesses | num.py:101-111 | the corrected check stores 3 for 2.99999999999 and 1 for 0.99999999999 |
| PyProperties.RoundedAgreesAtOrAboveInteger | num.py:101-111 | the corrected check and the code agree on every input, of either sign, that lies at or less than the tolerance above an integer |
| PyProperties.RoundedDiffersJustBelowInteger | num.py:101-111 | the corrected check and the code differ exactly on inputs that pass the whole-number check from just below an integer and that one of the two accepts |
| PyProperties.IsValidValueRaisesOnHugeInt | num.py:404-419 | `is_valid_value(2**1024 - 2**970)` raises OverflowError instead of answering false |
| PyProperties.PaddedStringExpectation | num.py:587-588 | `Num("  5  ")` is 5 |
| PyProperties.ScientificStringExpectation | num.py:591-592 | `Num("5e0")` is 5 |
| PyProperties.PointStringExpectation | num.py:521-524 | `Num("3.0")` is 3 |
| PyProperties.WordStringExpectation | num.py:490-496 | `Num("test")` is "Not a Number" |
| PyProperties.ArithmeticSuiteExpectations | num.py:458-466 | 3+4 is 7, 3-4 is -1, 3*4 is 12, 3/4 is 0.75, 2**3 is 8, none validated into the range |
| PyProperties.MislabelledFloorDivision | num.py:464-465 | the lines labelled `7 // 3` and `7 % 3` divide by `Num(4)`, giving 1 and 3 |
| PyProperties.AbsAndNegationExpectationsFail | num.py:569-576 | the suite labels `abs(Num(-5))` and `-Num(5)` with a check mark, but `Num(-5)` is "Out of range" at line 569, so the block ends in the `except` that reports the failure; `-Num(5)` would fail too; `+` and `copy` would give 5 |
| PyProperties.UtilitySuiteExpectations | num.py:559-563 | the bounds are 1 and 10; 5 is valid; 0 and 11 are not |
| JavaNum.Wrap32 | numtest.java:97-119 | Java int arithmetic: the exact result when it fits, otherwise a value congruent to it modulo 2^32 |
| JavaNum.CastToInt | numtest.java:32 | `(int) d` per section 5.1.3 of the Java Language Specification: NaN gives 0, the infinities the int bounds, a finite value its truncation toward zero, saturated at the int bounds |
| JavaNum.ExceedsTolerance | numtest.java:35 | `Math.abs(d - i) > 1e-10` is false for NaN, true for the infinities, and otherwise compares the exact difference |
| JavaNum.IsValidValue | numtest.java:260-262 | true exactly for ints in [1, 10] |
| JavaNum.ValidateValue | numtest.java:76-80 | accepts exactly what `isValidValue` accepts, storing the int, and fails with "Out of range" otherwise |
| JavaNum.FromInt | numtest.java:16-19 | `Num(int)` succeeds exactly when `isValidValue` holds, storing the int, and fails with "Out of range" otherwise |
| JavaNum.CheckTruncated | numtest.java:32-40 | "Not a Number" exactly when the double differs from its cast by more than the tolerance; success exactly when it does not and the cast is in range, storing the cast |
| JavaNum.CheckTruncatedOfInteger | numtest.java:32-40 | a whole number in [1, 10] passes the truncate-then-compare steps as itself |
| JavaNum.FromDouble | numtest.java:27-41 | NaN and the infinities are "Not a Number" before any other check; a finite double is accepted exactly when it is within the tolerance, inclusive, of its cast and the cast is in [1, 10] |
| JavaNum.FromString | numtest.java:49-68 | null, blank and unparsable text is "Not a Number"; text parsing to NaN is "Out of range"; any other parsed text is judged exactly as `Num(double)` judges its value |
| JavaNum.FromStringOfParsed | numtest.java:49-68 | text that needs no trimming and parses to a double is judged exactly by the steps `Num(double)` shares |
| JavaNum.FromStringOfInteger | numtest.java:49-68 | text that needs no trimming and parses exactly to a value in [1, 10] is accepted as that value |
| JavaNum.TrimmedDigitsParse | numtest.java:50-55 | the digits of a valid value need no trimming and parse to the value |
| JavaNum.FromStringChecked | numtest.java:27-30 | with the NaN check of `Num(double)` added, parsed text is judged exactly as its double, "Out of range" only arises from a finite number, and every success agrees with the code |
| JavaNum.ParseDoubleOfNatural | numtest.java:55 | `Double.parseDouble` reads the decimal digits of a natural number as that number |
| JavaNum.ParseDouble | numtest.java:55 | `Double.parseDouble` gives NaN exactly for `NaN` after an optional sign and the signed infinity for `Infinity`; decimal text that parses, without its type suffix, gives its value, or the signed infinity past the overflow threshold; nothing else parses; a finite result is the value of the decimal text and an infinite one comes from `Infinity` or from overflow |
| JavaNum.DecimalIsNoName | numtest.java:55 | decimal text that parses, with or without a type suffix, is never spelled `NaN` or `Infinity` |
| JavaNum.Unsuffixed | numtest.java:55 | the text is unchanged, or it ends in `f`, `F`, `d` or `D` and only that last character is removed |
| JavaNum.Of | numtest.java:231-241 | each `of` overload returns exactly what its constructor returns: the int overload is `Num(int)`, accepting exactly [1, 10] as itself and otherwise "Out of range", the double overload is `Num(double)` and the String overload is `Num(String)`; a non-finite double or a null string is "Not a Number"; an accepted double is within the tolerance of the stored value |
| JavaNum.GetValue | numtest.java:87-89 | `getValue()` is an int that `Num(int)` maps back to the same instance |
| JavaNum.GetMinValue | numtest.java:253-255 | the minimum is accepted by `Num(int)` and the int below it is not |
| JavaNum.GetMaxValue | numtest.java:246-248 | the maximum is accepted by `Num(int)` and the int above it is not |
| JavaNum.ToString | numtest.java:195-198 | `toString()` is the bare decimal digits of the value, with no sign, point or leading zero, and `Num(String)` reads it back as the same value |
| JavaNum.ToStringRoundTrip | numtest.java:195-198 | the String constructor reads the decimal digits of a valid value back as that value |
| JavaNum.Add | numtest.java:97-99 | the exact sum: no int overflow for values in range |
| JavaNum.Subtract | numtest.java:107-109 | the exact difference |
| JavaNum.Multiply | numtest.java:117-119 | the exact product |
| JavaNum.Divide | numtest.java:128-133 | always succeeds with a quotient that times the divisor gives the dividend: the zero-divisor branch is unreachable |
| JavaNum.CompareTo | numtest.java:214-216 | `Integer.compare` answers -1, 0 or 1 |
| JavaNum.IsLessThan | numtest.java:141-143 | `isLessThan` holds exactly when `compareTo` answers -1 |
| JavaNum.IsGreaterThan | numtest.java:151-153 | `isGreaterThan` holds exactly when `compareTo` answers 1 |
| JavaNum.IsEqualTo | numtest.java:161-163 | `isEqualTo` holds exactly when `compareTo` answers 0, and exactly when `equals` holds |
| JavaNum.IsLessThanOrEqualTo | numtest.java:171-173 | `isLessThanOrEqualTo` is `isLessThan` or `isEqualTo` |
| JavaNum.IsGreaterThanOrEqualTo | numtest.java:181-183 | `isGreaterThanOrEqualTo` is `isGreaterThan` or `isEqualTo` |
| JavaNum.IsNotEqualTo | numtest.java:191-193 | `isNotEqualTo` is the negation of `isEqualTo` |
| JavaNum.HashCode | numtest.java:208-211 | `hashCode()` agrees with `getValue()`, as `Integer.hashCode` is the identity, so `Num(int)` maps it back to the same value |
| JavaNum.Equals | numtest.java:200-206 | an object equals itself; null and objects of other classes are never equal |
| JavaProperties.ComparisonsAreConsistent | numtest.java:141-193 | exactly one of less, equal, greater; the non-strict forms are the unions; `isNotEqualTo` negates `isEqualTo`; the sign of `compareTo` matches each and is antisymmetric |
| JavaProperties.EqualsAndHashCode | numtest.java:200-211 | `equals` holds exactly for equal values, agrees with `compareTo`, is symmetric and reflexive, and equal instances have equal hash codes |
| JavaProperties.ArithmeticDoesNotWrap | numtest.java:97-133 | sums lie in [2, 20], differences in [-9, 9], products in [1, 100], and division always succeeds |
| JavaProperties.HugeDoubleIsNotANumber | numtest.java:32-39 | a double at least one beyond the int range saturates in the cast and is "Not a Number", not "Out of range" |
| JavaProperties.HugeDoubleWitness | numtest.java:32-39 | `Num(1e20)` is "Not a Number" |
| JavaProperties.TruncateThenCompare | numtest.java:32-37 | 2.99999999999 and 0.99999999999 are "Not a Number"; with exact reals 3 + 1e-10 is accepted as 3 since `>` is strict; 3 - 1e-10 is "Not a Number" |
| JavaProperties.NaNStringIsOutOfRange | numtest.java:49-68 | `Num("NaN")` is "Out of range", `Num(Double.NaN)` is "Not a Number", and the corrected String constructor gives "Not a Number" |
| JavaProperties.InfinityStringIsNotANumber | numtest.java:54-61 | `Num("Infinity")` and `Num("-Infinity")` are "Not a Number" |
| JavaProperties.BlankStringIsNotANumber | numtest.java:50-52 | null, the empty string and a blank string are "Not a Number" |
| JavaProperties.WordStringDriverExpectation | numtest.java:312-317 | `new Num("test")` is "Not a Number" |
| JavaProperties.PointStringDriverExpectation | numtest.java:339-343 | `new Num("3.0")` is 3 |
| JavaProperties.IntConstructorDriverExpectations | numtest.java:320-335 | `new Num(0)` and `new Num(11)` are "Out of range" |
| JavaProperties.DigitStringDriverExpectation | numtest.java:339-346 | `new Num("5")` is 5 |
| JavaProperties.DoubleConstructorDriverExpectations | numtest.java:348-357 | `new Num(5.0)` and `new Num(3.0)` are 5 and 3 |
| JavaProperties.FactoryDriverExpectations | numtest.java:359-370 | `of(7)`, `of("8")` and `of(9.0)` are 7, 8 and 9 |
| JavaProperties.ArithmeticDriverExpectations | numtest.java:284-378 | 3+4, 3-4, 3*4 and 3/4 are 7, -1, 12 and 0.75; the bounds are 1 and 10; 5 is valid, 0 and 11 are not |
| JsNum.Construct | basic.js:1-12 | "Not a Number" exactly for a non-number or NaN; "Out of range" exactly for a number below 1 or above 10, the infinities included; anything else is accepted and stored unchanged |
| JsNum.ValueOf | basic.js:15-17 | `valueOf()` returns a number in [1, 10] that the constructor accepts again as the same instance |
| JsNum.ToString | basic.js:20-22 | `toString()` of a whole value is its decimal digits, which read back as the stored number |
| JsNum.Plus | basic.js:15-17 | `a + b` through `valueOf`: the sum, between 2 and 20 |
| JsNum.Minus | basic.js:15-17 | `a - b` through `valueOf`: the difference, between -9 and 9 |
| JsNum.Times | basic.js:15-17 | `a * b` through `valueOf`: between 1 and 100, and at least each factor |
| JsNum.Divide | basic.js:15-17 | `a / b` through `valueOf`: between 0.1 and 10, and times the divisor it gives the dividend, so never a division by zero |
| JsNum.Less | basic.js:15-17 | `a < b` through `valueOf` holds exactly when the difference `a - b` is negative |
| JsNum.Greater | basic.js:15-17 | `a > b` through `valueOf` holds exactly when the difference `a - b` is positive |
| JsNum.LessEq | basic.js:15-17 | `a <= b` through `valueOf` is exactly the complement of `a > b` |
| JsNum.GreaterEq | basic.js:15-17 | `a >= b` through `valueOf` is exactly the complement of `a < b` |
| JsProperties.ComparisonsAreConsistent | basic.js:15-17 | `<` and `>` through `valueOf` are trichotomous with equality, `<=` and `>=` are the unions, and `a < b` is `b > a` |
| JsProperties.ArithmeticOnConstructed | basic.js:6-17 | arithmetic and ordering on two instances equal the same operations on the numbers they were built from |
| JsProperties.FractionIsAccepted | basic.js:6-11 | 5.5 is accepted as it is: there is no whole-number check |
| JsProperties.NonNumbersAndSpecialValues | basic.js:3-8 | the string "5" and other non-numbers are "Not a Number", NaN too, and the infinities are "Out of range" |
| JsProperties.ConstructorSuiteExpectations | advanced.js:319-388 | 4 is accepted; "test" is "Not a Number"; 0, -5 and 20 are "Out of range" |
| JsProperties.TenIsAccepted | advanced.js:2-13 | 10 is accepted, against the expectation of the test at advanced.js:367-376 |
| JsProperties.OperatorSuiteExpectations | advanced.js:390-423 | 3+4, 3-4, 3*4 and 3/4 are 7, -1, 12 and 0.75; 3<4 holds and 3>4 does not; `Num(5).toString()` is "5" |
| Divergence.IntegersAgree | numtest.java:16-41 | an int that fits in 32 bits is treated alike by the Python, Java and JavaScript constructors, as an int and as a double: accepted as itself exactly in [1, 10], "Out of range" otherwise |
| Divergence.DecimalStringsAgree | num.py:63-69 | the digits of a valid value are read back by Python and by Java's String constructor, and refused by JavaScript as "Not a Number" |
| Divergence.SmallFraction | num.py:113-123 | for a non-negative value within the tolerance above its truncation, that fraction is its distance to the nearest integer |
| Divergence.PythonAcceptedVersusJava | numtest.java:32-37 | when Python accepts a float as `n`, Java accepts it exactly when it lies less than the tolerance above `n`, with the same `n`, and otherwise says "Not a Number" |
| Divergence.JavaAcceptedVersusPython | num.py:101-111 | when Java accepts a double as `n`, Python accepts it as `n` exactly unless it is exactly the tolerance above `n`, where Python says "Not a Number" |
| Divergence.PythonAcceptedVersusJs | basic.js:6-8 | when Python accepts a float, JavaScript accepts it exactly when it is at most 10, and otherwise says "Out of range" |
| Divergence.JsAcceptedVersusOthers | basic.js:1-12 | for a number JavaScript accepts, Python accepts exactly when it passes the whole-number check and Java exactly when its fraction is within the tolerance; each rejection is "Not a Number" |
| Divergence.JustBelowAnInteger | num.py:106 | 2.99999999999: Python stores 2, Java says "Not a Number", JavaScript stores 2.99999999999 |
| Divergence.JustBelowOne | num.py:106-109 | 0.99999999999: Python and JavaScript say "Out of range", Java "Not a Number" |
| Divergence.JustAboveTen | basic.js:6-8 | 10.00000000001: Python and Java store 10, JavaScript says "Out of range" |
| Divergence.ExactlyTheToleranceAbove | numtest.java:35 | with exact reals, 3 + 1e-10: Java accepts 3, Python says "Not a Number" |
| Divergence.FractionInRange | basic.js:6-11 | 5.5: Python and Java say "Not a Number", JavaScript stores 5.5 |
| Divergence.HugeWholeNumber | numtest.java:32-39 | 1e20: Python and JavaScript say "Out of range", Java "Not a Number" |
| Divergence.NaNText | numtest.java:49-68 | "NaN": Python and JavaScript say "Not a Number", Java "Out of range" |
| Divergence.ArithmeticAgrees | numtest.java:97-133 | on valid operands Python and Java compute the same sums, differences, products and quotients |
| Divergence.JsArithmeticAgrees | basic.js:15-17 | on valid operands JavaScript's sums, differences, products and quotients through `valueOf` equal Java's |
| Divergence.ComparisonsAgree | numtest.java:141-206 | on valid operands the three versions order and compare alike |

## Left out

- IEEE rounding: finite doubles are exact reals. True division and the
  literal `1e-10` round in the sources and do not here; the differences
  `v - round(v)`, and `d - (int) d` when the cast does not saturate, are
  exact in the sources as well. The
  divergence at exactly 3 + 1e-10 is therefore a statement about exact
  arithmetic, and no double input produces it: the double nearest 1e-10 is
  an odd multiple of 2^-86, doubles in [1, 11) are multiples of 2^-52, so the
  double nearest 3 + 1e-10 lies more than 1e-10 above 3 and Java rejects it
  too.
- `PyNum.ParseFloat` and `JavaNum.ParseDouble` read decimal text as its exact
  value and round only on overflow to infinity. The sources round to the
  nearest double, so a long decimal string can get a different verdict:
  "2.9999999999999999" reads as the double 3.0, which Python stores as 3 and
  Java accepts as 3, while the model reads it exactly, Python storing 2 and
  Java answering "Not a Number".
- Library float parsing: Python's `float()` and Java's `Double.parseDouble`
  are modelled on a decimal subset:
  - an optional sign, digits with an optional point, and an optional exponent;
  - Python's `nan`/`inf`/`infinity` in any case;
  - Java's `NaN`/`Infinity` and its `f`/`F`/`d`/`D` suffix.

  Underscores, hexadecimal floats and other exotic spellings are left out.
- Whitespace: `str.strip()` and `String.trim()` are restricted to ASCII. Python
  strips characters 9-13 and 28-32; Java strips every character up to 32.
  Python's Unicode whitespace is left out.
- Python type dispatch: the `numbers` ABCs are replaced by the tagged
  `PyValue`, and `bool` counting as an int is not modelled. A float or int
  subclass is modelled as its base kind.
- `__repr__` (num.py:324-326) renders `Num(n)` and is left out.
- `JsNum.ToString`: renders only whole values. JavaScript's shortest
  round-trip rendering of fractional doubles needs IEEE doubles, which the
  model does not have.
- JavaScript `==` and `===` between two instances compare object identity;
  they are left out. Only the operators that go through `valueOf` are
  modelled.
- `advanced.js` outside lines 2-23 and 319-425 is user-interface code (DOM,
  timers, `eval` in a terminal, the instance counter) and is left out.
- The test drivers (num.py:432-647, numtest.java:268-382) only print. Their
  expected values are stated as lemmas.
- The nested `class Num` at numtest.java:219-226 and the `@Override` at
  numtest.java:213 stop the file from compiling. Only the outer class's logic
  is modelled.
- Java `null` operands of the arithmetic and comparison methods throw a
  `NullPointerException`. Operands are always instances here.
- The relations among the Java comparison methods and `compareTo` over all
  pairs of values are stated in `JavaProperties.ComparisonsAreConsistent`,
  and the `equals`/`hashCode` contract in `JavaProperties.EqualsAndHashCode`.

## Findings

| source | as written | input that shows it | evidently intended | confidence | as-written member | corrected member |
|---|---|---|---|---|---|---|
| num.py:101-111 | the whole-number check measures the distance to the nearest integer, but `int()` then truncates, so an input just below an integer is stored as the integer below it | `Num(2.99999999999)` stores 2; `Num(0.99999999999)` is "Out of range" | store the integer the input is within tolerance of (3 and 1) | not executed | PyProperties.TruncationBelowInteger | PyNum.CheckWholeInRangeRounded |
| numtest.java:49-68 | the String constructor has no NaN check; `Math.abs(NaN - 0) > 1e-10` is false, so NaN reaches the range check with `(int) NaN == 0` | `new Num("NaN")` throws "Out of range" | "Not a Number", as `Num(double)` gives for NaN | not executed | JavaProperties.NaNStringIsOutOfRange | JavaNum.FromStringChecked |
| num.py:404-419 | `is_valid_value` catches only `TypeError`, but `math.isnan` on an int too large for a float raises `OverflowError` | `Num.is_valid_value(2**1024)` raises instead of returning False | return False for every invalid input | not executed | PyProperties.IsValidValueRaisesOnHugeInt | PyNum.IsValidValueTotal |

=== FILE: bounded.dfy ===
/** The range every implementation enforces on an accepted value. */
module Bounded {

  const MinValue: int := 1
  const MaxValue: int := 10

  /** An integer value that construction has accepted. */
  type Num = v: int | MinValue <= v <= MaxValue witness MinValue
}

=== FILE: decimal.dfy ===
/** Decimal text: rendering naturals, stripping whitespace and the decimal
    floating-point grammar shared by Python's `float(str)` and Java's
    `Double.parseDouble`. */
module Decimal {
  import opened Results
  import opened Numeric

  predicate IsDigit(c: char) {
    '0' <= c <= '9'
  }

  predicate AllDigits(s: string) {
    forall i | 0 <= i < |s| :: IsDigit(s[i])
  }

  function DigitValue(c: char): (d: nat)
    requires IsDigit(c)
    ensures d < 10
  {
    c as int - '0' as int
  }

  function DigitChar(d: nat): (c: char)
    requires d < 10
    ensures IsDigit(c) && DigitValue(c) == d
  {
    ('0' as int + d) as char
  }

  /** The natural number a string of decimal digits denotes (0 for the empty string). */
  function DigitsValue(s: string): nat
    requires AllDigits(s)
  {
    if |s| == 0 then 0 else 10 * DigitsValue(s[..|s| - 1]) + DigitValue(s[|s| - 1])
  }

  /** The decimal digits of `n` without leading zeros: Python's `str(n)` and
      Java's `String.valueOf(n)` for a non-negative int. */
  function NatToDecimal(n: nat): (s: string)
    ensures |s| >= 1 && AllDigits(s)
    ensures n < 10 <==> |s| == 1
    ensures s[0] == '0' <==> n == 0
  {
    if n < 10 then [DigitChar(n)] else NatToDecimal(n / 10) + [DigitChar(n % 10)]
  }

  lemma {:induction false} NatToDecimalRoundTrip(n: nat)
    ensures DigitsValue(NatToDecimal(n)) == n
  {
    if n >= 10 {
      var s := NatToDecimal(n / 10);
      var t := s + [DigitChar(n % 10)];
      assert t[..|t| - 1] == s;
      NatToDecimalRoundTrip(n / 10);
    }
  }

  /** The index of the first character satisfying `p`, or `|s|` when there is none. */
  function FirstIndex(s: string, p: char -> bool): (i: nat)
    ensures i <= |s|
    ensures i < |s| ==> p(s[i])
    ensures forall j | 0 <= j < i :: !p(s[j])
  {
    if |s| == 0 || p(s[0]) then 0 else 1 + FirstIndex(s[1..], p)
  }

  /** `s` without its leading characters that satisfy `isSpace`. */
  function StripLeading(s: string, isSpace: char -> bool): (t: string)
    ensures |t| <= |s| && t == s[|s| - |t|..]
    ensures forall i | 0 <= i < |s| - |t| :: isSpace(s[i])
    ensures |t| > 0 ==> !isSpace(t[0])
  {
    if |s| > 0 && isSpace(s[0]) then
      var t := StripLeading(s[1..], isSpace);
      assert s[1..][|s| - 1 - |t|..] == s[|s| - |t|..];
      assert forall i | 1 <= i < |s| - |t| :: s[i] == s[1..][i - 1];
      t
    else s
  }

  /** `s` without its trailing characters that satisfy `isSpace`. */
  function StripTrailing(s: string, isSpace: char -> bool): (t: string)
    ensures |t| <= |s| && t == s[..|t|]
    ensures forall i | |t| <= i < |s| :: isSpace(s[i])
    ensures |t| > 0 ==> !isSpace(t[|t| - 1])
  {
    if |s| > 0 && isSpace(s[|s| - 1]) then StripTrailing(s[..|s| - 1], isSpace) else s
  }

  /** `s` without leading and trailing characters that satisfy `isSpace`. */
  function Strip(s: string, isSpace: char -> bool): (t: string)
    ensures |t| > 0 ==> !isSpace(t[0]) && !isSpace(t[|t| - 1])
    ensures exists i, j {:trigger s[i..j]} :: 0 <= i <= j <= |s| && t == s[i..j]
              && (forall k | 0 <= k < i :: isSpace(s[k]))
              && (forall k | j <= k < |s| :: isSpace(s[k]))
  {
    var l := StripLeading(s, isSpace);
    var t := StripTrailing(l, isSpace);
    var i := |s| - |l|;
    assert t == s[i..i + |t|];
    t
  }

  lemma StripUnpadded(s: string, isSpace: char -> bool)
    requires |s| > 0 && !isSpace(s[0]) && !isSpace(s[|s| - 1])
    ensures Strip(s, isSpace) == s
  {
  }

  /** A leading `+` or `-` split off: whether the text is negated, and the rest. */
  function SplitSign(s: string): (r: (bool, string))
    ensures r.0 <==> |s| > 0 && s[0] == '-'
    ensures r.1 == s || (|s| > 0 && (s[0] == '+' || s[0] == '-') && r.1 == s[1..])
  {
    if |s| > 0 && (s[0] == '+' || s[0] == '-') then (s[0] == '-', s[1..]) else (false, s)
  }

  /** `m` times ten to the power `k`. */
  function Scale(m: real, k: int): (r: real)
    ensures k >= 0 ==> r == m * Power(10, k) as real
    ensures k < 0 ==> r * Power(10, -k) as real == m
    ensures m >= 0.0 ==> r >= 0.0
  {
    if k >= 0 then m * Power(10, k) as real else m / Power(10, -k) as real
  }

  /** `digits [. digits]` or `. digits`: at least one digit on either side of
      an optional point. */
  function ParseMantissa(s: string): (r: Option<real>)
    ensures r.Some? ==> r.value >= 0.0
    ensures r.Some? ==> |s| > 0 && (IsDigit(s[0]) || s[0] == '.')
  {
    var p := FirstIndex(s, c => c == '.');
    assert 0 < p <= |s| ==> s[..p][0] == s[0];
    if p == |s| then
      if |s| > 0 && AllDigits(s) then Some(DigitsValue(s) as real) else None
    else
      var whole, frac := s[..p], s[p + 1..];
      if AllDigits(whole) && AllDigits(frac) && |whole| + |frac| > 0 then
        Some(DigitsValue(whole) as real + DigitsValue(frac) as real / Power(10, |frac|) as real)
      else None
  }

  /** `[+|-] digits`: the exponent after `e` or `E`. */
  function ParseExponent(s: string): (r: Option<int>)
    ensures r.Some? <==> |SplitSign(s).1| > 0 && AllDigits(SplitSign(s).1)
    ensures r.Some? ==> IntAbs(r.value) == DigitsValue(SplitSign(s).1)
    ensures r.Some? && r.value < 0 ==> SplitSign(s).0
  {
    var (negative, digits) := SplitSign(s);
    if |digits| > 0 && AllDigits(digits) then
      Some(if negative then -(DigitsValue(digits) as int) else DigitsValue(digits))
    else None
  }

  /** `[+|-] mantissa [(e|E) exponent]`, evaluated exactly. */
  function ParseDecimal(s: string): (r: Option<real>)
    ensures r.Some? && r.value != 0.0 ==> (r.value < 0.0 <==> SplitSign(s).0)
  {
    var (negative, body) := SplitSign(s);
    var e := FirstIndex(body, c => c == 'e' || c == 'E');
    match ParseMantissa(body[..e])
    case None => None
    case Some(m) =>
      var exponent := if e < |body| then ParseExponent(body[e + 1..]) else Some(0);
      match exponent
      case None => None
      case Some(k) =>
        var magnitude := Scale(m, k);
        Some(if negative then -magnitude else magnitude)
  }

  /** `FirstIndex` finds nothing in a string none of whose characters satisfy `p`. */
  lemma {:induction false} FirstIndexAbsent(s: string, p: char -> bool)
    requires forall i | 0 <= i < |s| :: !p(s[i])
    ensures FirstIndex(s, p) == |s|
  {
    if |s| > 0 {
      assert forall i | 0 <= i < |s[1..]| :: s[1..][i] == s[i + 1];
      FirstIndexAbsent(s[1..], p);
    }
  }

  /** A string of digits is a mantissa without a point, denoting its digits' value. */
  lemma MantissaOfDigits(s: string)
    requires |s| > 0 && AllDigits(s)
    ensures ParseMantissa(s) == Some(DigitsValue(s) as real)
  {
    FirstIndexAbsent(s, c => c == '.');
  }

  /** A mantissa that parses starts with a digit or the point. */
  lemma MantissaStart(s: string)
    requires ParseMantissa(s).Some?
    ensures |s| > 0 && (IsDigit(s[0]) || s[0] == '.')
  {
    var p := FirstIndex(s, c => c == '.');
    if 0 < p < |s| {
      assert s[..p][0] == s[0];
    }
  }

  /** Decimal text that parses starts, after its sign, with a digit or the
      point, so it is never one of the spelled-out special values. */
  lemma DecimalStart(s: string)
    requires ParseDecimal(s).Some?
    ensures var body := SplitSign(s).1; |body| > 0 && (IsDigit(body[0]) || body[0] == '.')
  {
    var body := SplitSign(s).1;
    var e := FirstIndex(body, c => c == 'e' || c == 'E');
    MantissaStart(body[..e]);
    assert body[..e][0] == body[0];
  }

  /** Parsing the rendering of a natural number gives that number back. */
  lemma ParseDecimalOfNatural(n: nat)
    ensures ParseDecimal(NatToDecimal(n)) == Some(n as real)
  {
    var s := NatToDecimal(n);
    assert IsDigit(s[0]);
    assert SplitSign(s) == (false, s);
    FirstIndexAbsent(s, c => c == 'e' || c == 'E');
    var e := FirstIndex(s, c => c == 'e' || c == 'E');
    assert e == |s| && s[..e] == s;
    MantissaOfDigits(s);
    NatToDecimalRoundTrip(n);
    assert Scale(n as real, 0) == n as real;
  }

  function LowerChar(c: char): char {
    if 'A' <= c <= 'Z' then (c as int + 32) as char else c
  }

  /** `s` with ASCII capital letters made lower case. */
  function LowerAscii(s: string): (t: string)
    ensures |t| == |s|
    ensures forall i | 0 <= i < |s| :: t[i] == LowerChar(s[i])
  {
    if |s| == 0 then [] else [LowerChar(s[0])] + LowerAscii(s[1..])
  }
}

=== FILE: divergence.dfy ===
/** Where the three versions of `Num` agree and where they part: the Python
    class (num.py), the Java class (numtest.java) and the JavaScript
    constructor function (basic.js). */
module Divergence {
  import opened Results
  import opened Bounded
  import opened Numeric
  import Decimal
  import PyNum
  import JavaNum
  import JsNum

  /** An integer that fits a Java int is treated alike by every version:
      accepted with its own value when it lies in [1, 10], "Out of range"
      otherwise, whether it arrives as an int or as a double. */
  lemma IntegersAgree(k: JavaNum.Int32)
    ensures PyNum.FromInt(k) == JavaNum.FromInt(k)
    ensures PyNum.FromFloat(Finite(k as real)) == JavaNum.FromInt(k)
    ensures JavaNum.FromDouble(Finite(k as real)) == JavaNum.FromInt(k)
    ensures JsNum.Construct(JsNum.Number(Finite(k as real))).Ok? <==> JavaNum.FromInt(k).Ok?
    ensures JavaNum.FromInt(k).Ok? ==> JsNum.Construct(JsNum.Number(Finite(k as real))).value == k as real
    ensures JavaNum.FromInt(k).Err? ==> JsNum.Construct(JsNum.Number(Finite(k as real))) == Err(OutOfRange)
  {
    TruncOfInteger(k);
    assert JavaNum.CastToInt(Finite(k as real)) == k;
    assert PyNum.DistanceToInteger(k as real) == 0.0;
  }

  /** The decimal digits of a valid value: Python and Java read them back as
      that value; JavaScript refuses any string as "Not a Number". */
  lemma DecimalStringsAgree(n: Num)
    ensures PyNum.Construct(PyNum.PyStr(Decimal.NatToDecimal(n))) == Ok(n)
    ensures JavaNum.FromString(Some(Decimal.NatToDecimal(n))) == Ok(n)
    ensures JsNum.Construct(JsNum.Text(Decimal.NatToDecimal(n))) == Err(NotANumber)
  {
    PyNum.StrRoundTrip(n);
    JavaNum.ToStringRoundTrip(n);
  }

  /** Both checks treat a non-negative value as `floor + fraction`; when the
      fraction is no more than the tolerance, the fraction is the distance to
      the nearest integer. */
  lemma SmallFraction(x: real)
    requires x >= 0.0 && x - Trunc(x) as real <= Tolerance
    ensures PyNum.DistanceToInteger(x) == x - Trunc(x) as real
  {
    assert Trunc(x) == x.Floor;
  }

  /** When Python accepts a finite value as `n`, Java accepts it too exactly
      when the value is not below `n + 1` by less than the tolerance, that
      is when it lies within the tolerance above `n`; then Java stores the
      same `n`, and otherwise it reports "Not a Number". */
  lemma PythonAcceptedVersusJava(x: real)
    requires PyNum.FromFloat(Finite(x)).Ok?
    ensures var n := PyNum.FromFloat(Finite(x)).value;
      (JavaNum.FromDouble(Finite(x)).Ok? <==> x - n as real < Tolerance)
      && (JavaNum.FromDouble(Finite(x)).Ok? ==> JavaNum.FromDouble(Finite(x)).value == n)
      && (JavaNum.FromDouble(Finite(x)).Err? ==> JavaNum.FromDouble(Finite(x)).error == NotANumber)
  {
    var n := PyNum.FromFloat(Finite(x)).value;
    assert n == Trunc(x) && x >= 1.0;
    assert JavaNum.CastToInt(Finite(x)) == n;
    if x - n as real < Tolerance {
      SmallFraction(x);
    } else {
      assert x.Floor == n;
      assert (n as int + 1) as real - x < Tolerance;
      assert x - n as real > Tolerance;
    }
  }

  /** When Java accepts a finite value as `n`, Python accepts it too unless
      it lies exactly the tolerance above `n`; Java's test `> 1e-10` lets
      that value through and Python's `< 1e-10` does not. */
  lemma JavaAcceptedVersusPython(x: real)
    requires JavaNum.FromDouble(Finite(x)).Ok?
    ensures var n := JavaNum.FromDouble(Finite(x)).value;
      (PyNum.FromFloat(Finite(x)) == Ok(n) <==> x != n as real + Tolerance)
      && (x == n as real + Tolerance ==> PyNum.FromFloat(Finite(x)) == Err(NotANumber))
  {
    var n := JavaNum.FromDouble(Finite(x)).value;
    assert x >= 0.0;
    assert Trunc(x) == n;
    SmallFraction(x);
  }

  /** When Python accepts a finite value, JavaScript accepts it too unless it
      lies just above 10, which Python truncates to 10 and JavaScript finds
      out of range; JavaScript stores the value untruncated. */
  lemma PythonAcceptedVersusJs(x: real)
    requires PyNum.FromFloat(Finite(x)).Ok?
    ensures JsNum.Construct(JsNum.Number(Finite(x))).Ok? <==> x <= 10.0
    ensures x > 10.0 ==> JsNum.Construct(JsNum.Number(Finite(x))) == Err(OutOfRange)
  {
    assert Trunc(x) >= 1;
  }

  /** When JavaScript accepts a number, Python accepts it exactly when it
      passes the whole-number check and Java exactly when its fractional part
      is within the tolerance: neither has a range check left to fail. */
  lemma JsAcceptedVersusOthers(x: real)
    requires JsNum.Construct(JsNum.Number(Finite(x))).Ok?
    ensures PyNum.FromFloat(Finite(x)).Ok? <==> PyNum.DistanceToInteger(x) < Tolerance
    ensures JavaNum.FromDouble(Finite(x)).Ok? <==> x - x.Floor as real <= Tolerance
    ensures PyNum.FromFloat(Finite(x)).Err? ==> PyNum.FromFloat(Finite(x)).error == NotANumber
    ensures JavaNum.FromDouble(Finite(x)).Err? ==> JavaNum.FromDouble(Finite(x)).error == NotANumber
  {
    assert Trunc(x) == x.Floor;
    assert 1 <= x.Floor <= 10;
    assert JavaNum.CastToInt(Finite(x)) == x.Floor;
  }

  /** The examples that tell the versions apart. */
  lemma JustBelowAnInteger()
    ensures PyNum.FromFloat(Finite(2.99999999999)) == Ok(2)
    ensures JavaNum.FromDouble(Finite(2.99999999999)) == Err(NotANumber)
    ensures JsNum.Construct(JsNum.Number(Finite(2.99999999999))) == Ok(2.99999999999)
  {
    assert Trunc(2.99999999999) == 2;
    assert PyNum.DistanceToInteger(2.99999999999) == 0.00000000001;
  }

  lemma JustBelowOne()
    ensures PyNum.FromFloat(Finite(0.99999999999)) == Err(OutOfRange)
    ensures JavaNum.FromDouble(Finite(0.99999999999)) == Err(NotANumber)
    ensures JsNum.Construct(JsNum.Number(Finite(0.99999999999))) == Err(OutOfRange)
  {
    assert Trunc(0.99999999999) == 0;
    assert PyNum.DistanceToInteger(0.99999999999) == 0.00000000001;
  }

  lemma JustAboveTen()
    ensures PyNum.FromFloat(Finite(10.00000000001)) == Ok(10)
    ensures JavaNum.FromDouble(Finite(10.00000000001)) == Ok(10)
    ensures JsNum.Construct(JsNum.Number(Finite(10.00000000001))) == Err(OutOfRange)
  {
    assert Trunc(10.00000000001) == 10;
    assert PyNum.DistanceToInteger(10.00000000001) == 0.00000000001;
  }

  /** With exact reals, 3 + 1e-10 is accepted by Java's inclusive
      comparison and rejected by Python's strict one. No double lies exactly
      there, so this is a statement about exact arithmetic. */
  lemma ExactlyTheToleranceAbove()
    ensures PyNum.FromFloat(Finite(3.0 + Tolerance)) == Err(NotANumber)
    ensures JavaNum.FromDouble(Finite(3.0 + Tolerance)) == Ok(3)
  {
    JavaAcceptedVersusPython(3.0 + Tolerance);
  }

  lemma FractionInRange()
    ensures PyNum.FromFloat(Finite(5.5)) == Err(NotANumber)
    ensures JavaNum.FromDouble(Finite(5.5)) == Err(NotANumber)
    ensures JsNum.Construct(JsNum.Number(Finite(5.5))) == Ok(5.5)
  {
    assert Trunc(5.5) == 5;
    assert PyNum.DistanceToInteger(5.5) == 0.5;
  }

  lemma HugeWholeNumber()
    ensures PyNum.FromFloat(Finite(100000000000000000000.0)) == Err(OutOfRange)
    ensures JavaNum.FromDouble(Finite(100000000000000000000.0)) == Err(NotANumber)
    ensures JsNum.Construct(JsNum.Number(Finite(100000000000000000000.0))) == Err(OutOfRange)
  {
    TruncOfInteger(100000000000000000000);
    assert PyNum.DistanceToInteger(100000000000000000000.0) == 0.0;
    assert JavaNum.CastToInt(Finite(100000000000000000000.0)) == JavaNum.MaxInt;
  }

  /** The text "NaN": Python parses it and rejects NaN, Java's String
      constructor lets it reach the range check, JavaScript refuses any
      string. */
  lemma NaNText()
    ensures PyNum.Construct(PyNum.PyStr("NaN")) == Err(NotANumber)
    ensures JavaNum.FromString(Some("NaN")) == Err(OutOfRange)
    ensures JsNum.Construct(JsNum.Text("NaN")) == Err(NotANumber)
  {
    Decimal.StripUnpadded("NaN", PyNum.IsSpace);
    assert Decimal.SplitSign("NaN") == (false, "NaN");
    assert Decimal.LowerAscii("NaN") == "nan";
    assert PyNum.ParseFloat("NaN") == Some(NaN);
    Decimal.StripUnpadded("NaN", JavaNum.IsTrimmed);
    assert JavaNum.ParseDouble("NaN") == Some(NaN);
  }

  /** On valid operands Python's arithmetic computes the same numbers as
      Java's int arithmetic. */
  lemma ArithmeticAgrees(a: Num, b: Num)
    ensures PyNum.Add(a, PyNum.NumOperand(b)) == Ok(JavaNum.Add(a, b))
    ensures PyNum.Subtract(a, PyNum.NumOperand(b)) == Ok(JavaNum.Subtract(a, b))
    ensures PyNum.Multiply(a, PyNum.NumOperand(b)) == Ok(JavaNum.Multiply(a, b))
    ensures PyNum.TrueDivide(a, PyNum.NumOperand(b)) == JavaNum.Divide(a, b)
  {
  }

  /** On valid operands JavaScript's arithmetic through `valueOf` computes
      the same numbers as Java's. */
  lemma JsArithmeticAgrees(a: Num, b: Num)
    ensures JsNum.Plus(a as real, b as real) == JavaNum.Add(a, b) as real
    ensures JsNum.Minus(a as real, b as real) == JavaNum.Subtract(a, b) as real
    ensures JsNum.Times(a as real, b as real) == JavaNum.Multiply(a, b) as real
    ensures JavaNum.Divide(a, b) == Ok(JsNum.Divide(a as real, b as real))
  {
  }

  lemma ComparisonsAgree(a: Num, b: Num)
    ensures PyNum.Less(a, PyNum.NumOperand(b)) == Ok(JavaNum.IsLessThan(a, b))
    ensures JsNum.Less(a as real, b as real) == JavaNum.IsLessThan(a, b)
    ensures PyNum.Greater(a, PyNum.NumOperand(b)) == Ok(JavaNum.IsGreaterThan(a, b))
    ensures JsNum.Greater(a as real, b as real) == JavaNum.IsGreaterThan(a, b)
    ensures PyNum.LessEq(a, PyNum.NumOperand(b)) == Ok(JavaNum.IsLessThanOrEqualTo(a, b))
    ensures JsNum.LessEq(a as real, b as real) == JavaNum.IsLessThanOrEqualTo(a, b)
    ensures PyNum.GreaterEq(a, PyNum.NumOperand(b)) == Ok(JavaNum.IsGreaterThanOrEqualTo(a, b))
    ensures JsNum.GreaterEq(a as real, b as real) == JavaNum.IsGreaterThanOrEqualTo(a, b)
    ensures PyNum.Equal(a, PyNum.NumOperand(b)) == JavaNum.Equals(a, JavaNum.NumRef(b))
  {
  }
}

=== FILE: java_num.dfy ===
/** The Java `Num` class (numtest.java): three constructors, each with its own
    validation rules, int arithmetic, comparisons and the `Object` contract. */
module JavaNum {
  import opened Results
  import opened Bounded
  import opened Numeric
  import Decimal

  const MinInt: int := -0x8000_0000
  const MaxInt: int := 0x7fff_ffff

  /** A Java `int`. */
  type Int32 = i: int | MinInt <= i <= MaxInt

  /** Java `int` arithmetic: the exact result wrapped into 32 bits. */
  function Wrap32(x: int): (r: Int32)
    ensures MinInt <= x <= MaxInt ==> r == x
    ensures (r - x) % 0x1_0000_0000 == 0
  {
    (x - MinInt) % 0x1_0000_0000 + MinInt
  }

  /** The narrowing cast `(int) d` of section 5.1.3 of the Java Language
      Specification: NaN becomes 0, other values are rounded toward zero, and
      a result outside the int range becomes the nearest end of that range. */
  function CastToInt(d: Float): (i: Int32)
    ensures d.NaN? ==> i == 0
    ensures d.PosInf? ==> i == MaxInt
    ensures d.NegInf? ==> i == MinInt
    ensures d.Finite? && d.x >= 0.0 ==> i as real <= d.x && (i == MaxInt || d.x < i as real + 1.0)
    ensures d.Finite? && d.x < 0.0 ==> d.x <= i as real && (i == MinInt || i as real - 1.0 < d.x)
  {
    match d
    case NaN => 0
    case PosInf => MaxInt
    case NegInf => MinInt
    case Finite(x) =>
      var t := Trunc(x);
      if t > MaxInt then MaxInt else if t < MinInt then MinInt else t
  }

  /** `Math.abs(d - i) > 1e-10` in double arithmetic: every comparison with
      NaN is false, and an infinite difference exceeds any bound. */
  function ExceedsTolerance(d: Float, i: Int32): (b: bool)
    ensures d.NaN? ==> !b
    ensures d.PosInf? || d.NegInf? ==> b
    ensures d.Finite? ==> (b <==> Abs(d.x - i as real) > Tolerance)
  {
    match d
    case NaN => false
    case PosInf => true
    case NegInf => true
    case Finite(x) => Abs(x - i as real) > Tolerance
  }

  /** `Num.isValidValue`. */
  function IsValidValue(v: Int32): (b: bool)
    ensures b <==> MinValue <= v <= MaxValue
  {
    v >= 1 && v <= 10
  }

  /** `validateValue` followed by the store into the field. */
  function ValidateValue(v: Int32): (r: Result<Num>)
    ensures r.Ok? <==> IsValidValue(v)
    ensures r.Ok? ==> r.value == v
    ensures r.Err? ==> r.error == OutOfRange
  {
    if v < 1 || v > 10 then Err(OutOfRange) else Ok(v)
  }

  /** `Num(int)`. */
  function FromInt(v: Int32): (r: Result<Num>)
    ensures r.Ok? <==> IsValidValue(v)
    ensures r.Ok? ==> r.value == v
    ensures r.Err? ==> r.error == OutOfRange
  {
    ValidateValue(v)
  }

  /** The truncate-then-compare steps that `Num(double)` and `Num(String)`
      share: cast to int, reject a difference above the tolerance, then
      validate the cast value. */
  function CheckTruncated(d: Float): (r: Result<Num>)
    ensures r == Err(NotANumber) <==> ExceedsTolerance(d, CastToInt(d))
    ensures r.Ok? <==> !ExceedsTolerance(d, CastToInt(d)) && IsValidValue(CastToInt(d))
    ensures r.Ok? ==> r.value == CastToInt(d)
    ensures r.Err? ==> r.error == NotANumber || r.error == OutOfRange
  {
    var i := CastToInt(d);
    if ExceedsTolerance(d, i) then Err(NotANumber) else ValidateValue(i)
  }

  /** `Num(double)`: NaN and the infinities are rejected before anything else. */
  function FromDouble(d: Float): (r: Result<Num>)
    ensures !d.Finite? ==> r == Err(NotANumber)
    ensures d.Finite? ==>
      (r.Ok? <==> Abs(d.x - CastToInt(d) as real) <= Tolerance && MinValue <= CastToInt(d) <= MaxValue)
    ensures d.Finite? ==> (r == Err(NotANumber) <==> Abs(d.x - CastToInt(d) as real) > Tolerance)
    ensures r.Ok? ==> d.Finite? && r.value == CastToInt(d) && Abs(d.x - r.value as real) <= Tolerance
    ensures r.Err? ==> r.error == NotANumber || r.error == OutOfRange
  {
    if d.NaN? || d.PosInf? || d.NegInf? then Err(NotANumber) else CheckTruncated(d)
  }

  /** The characters `String.trim()` removes: every code point up to U+0020. */
  predicate IsTrimmed(c: char) {
    c as int <= 32
  }

  /** The text of a decimal number without the `f`, `F`, `d` or `D` type
      suffix `Double.parseDouble` allows. */
  function Unsuffixed(t: string): (u: string)
    ensures u == t || (|t| > 0 && t[|t| - 1] in "fFdD" && u == t[..|t| - 1])
  {
    if |t| > 0 && t[|t| - 1] in "fFdD" then t[..|t| - 1] else t
  }

  /** `Double.parseDouble` on trimmed text: `NaN` or `Infinity` after an
      optional sign, or a decimal number with an optional suffix, rounded to
      a double. */
  function ParseDouble(t: string): (p: Option<Float>)
    ensures p == Some(NaN) <==> Decimal.SplitSign(t).1 == "NaN"
    ensures p.Some? && p.value.Finite? ==> Decimal.ParseDecimal(Unsuffixed(t)) == Some(p.value.x)
    ensures p.Some? && !p.value.NaN? && !p.value.Finite? ==>
      Decimal.SplitSign(t).1 == "Infinity"
      || (Decimal.ParseDecimal(Unsuffixed(t)).Some?
          && Abs(Decimal.ParseDecimal(Unsuffixed(t)).value) >= OverflowBound as real)
    ensures Decimal.SplitSign(t).1 == "Infinity" ==>
      p == Some(if Decimal.SplitSign(t).0 then NegInf else PosInf)
    ensures Decimal.ParseDecimal(Unsuffixed(t)).Some? ==>
      p == Some(RoundToDouble(Decimal.ParseDecimal(Unsuffixed(t)).value))
    ensures p.None? <==>
      Decimal.SplitSign(t).1 !in {"NaN", "Infinity"} && Decimal.ParseDecimal(Unsuffixed(t)).None?
  {
    DecimalIsNoName(t);
    var (negative, body) := Decimal.SplitSign(t);
    if body == "NaN" then Some(NaN)
    else if body == "Infinity" then Some(if negative then NegInf else PosInf)
    else
      match Decimal.ParseDecimal(Unsuffixed(t))
      case None => None
      case Some(x) => Some(RoundToDouble(x))
  }

  /** Decimal text that parses, with or without a suffix, is never spelled
      `NaN` or `Infinity`. */
  lemma DecimalIsNoName(t: string)
    ensures Decimal.ParseDecimal(Unsuffixed(t)).Some? ==>
      Decimal.SplitSign(t).1 != "NaN" && Decimal.SplitSign(t).1 != "Infinity"
  {
    var u := Unsuffixed(t);
    if Decimal.ParseDecimal(u).Some? {
      Decimal.DecimalStart(u);
      var body := Decimal.SplitSign(t).1;
      assert u == t[..|u|];
      assert |body| > 0 && body[0] == Decimal.SplitSign(u).1[0];
    }
  }

  lemma ParseDoubleOfNatural(n: nat)
    ensures ParseDouble(Decimal.NatToDecimal(n)) == Some(RoundToDouble(n as real))
  {
    var s := Decimal.NatToDecimal(n);
    assert Decimal.IsDigit(s[0]) && Decimal.IsDigit(s[|s| - 1]);
    assert Decimal.SplitSign(s) == (false, s);
    assert s != "NaN" && s != "Infinity" by { assert s[0] != 'N' && s[0] != 'I'; }
    assert s[|s| - 1] !in "fFdD";
    Decimal.ParseDecimalOfNatural(n);
  }

  /** `Num(String)`, with `None` for a null reference. Unlike `Num(double)`
      it has no NaN check: "NaN" passes the tolerance test, since a comparison
      with NaN is false, and `(int) NaN` is 0, so it fails as "Out of range". */
  function FromString(s: Option<string>): (r: Result<Num>)
    ensures s.None? ==> r == Err(NotANumber)
    ensures s.Some? && Decimal.Strip(s.value, IsTrimmed) == "" ==> r == Err(NotANumber)
    ensures s.Some? && ParseDouble(Decimal.Strip(s.value, IsTrimmed)).None? ==> r == Err(NotANumber)
    ensures s.Some? ==> var p := ParseDouble(Decimal.Strip(s.value, IsTrimmed));
      p.Some? && !p.value.NaN? && Decimal.Strip(s.value, IsTrimmed) != "" ==> r == FromDouble(p.value)
    ensures s.Some? ==> var p := ParseDouble(Decimal.Strip(s.value, IsTrimmed));
      p == Some(NaN) && Decimal.Strip(s.value, IsTrimmed) != "" ==> r == Err(OutOfRange)
  {
    if s.None? then Err(NotANumber)
    else
      var t := Decimal.Strip(s.value, IsTrimmed);
      if |t| == 0 then Err(NotANumber)
      else
        match ParseDouble(t)
        case None => Err(NotANumber)
        case Some(d) => CheckTruncated(d)
  }

  /** `Num(String)` with the NaN check `Num(double)` has: a string is accepted
      or rejected exactly as the double it parses to. */
  function FromStringChecked(s: Option<string>): (r: Result<Num>)
    ensures s.Some? ==> var p := ParseDouble(Decimal.Strip(s.value, IsTrimmed));
      p.Some? && Decimal.Strip(s.value, IsTrimmed) != "" ==> r == FromDouble(p.value)
    ensures r == Err(OutOfRange) ==> s.Some? && var p := ParseDouble(Decimal.Strip(s.value, IsTrimmed));
      p.Some? && p.value.Finite?
    ensures r.Ok? ==> FromString(s) == r
  {
    if s.None? then Err(NotANumber)
    else
      var t := Decimal.Strip(s.value, IsTrimmed);
      if |t| == 0 then Err(NotANumber)
      else
        match ParseDouble(t)
        case None => Err(NotANumber)
        case Some(d) => FromDouble(d)
  }

  /** The argument of `Num.of`, by the overload it selects. */
  datatype Argument = IntArg(i: Int32) | DoubleArg(d: Float) | StringArg(s: Option<string>)

  /** `Num.of(int)`, `Num.of(double)` and `Num.of(String)`: each returns
      what the constructor it calls returns. */
  function Of(arg: Argument): (r: Result<Num>)
    ensures arg.IntArg? ==> (r.Ok? <==> IsValidValue(arg.i)) && (r.Ok? ==> r.value == arg.i)
    ensures arg.DoubleArg? && !arg.d.Finite? ==> r == Err(NotANumber)
    ensures arg.DoubleArg? && r.Ok? ==> Abs(arg.d.x - r.value as real) <= Tolerance
    ensures arg.StringArg? && arg.s.None? ==> r == Err(NotANumber)
    ensures arg.IntArg? ==> r == FromInt(arg.i)
    ensures arg.DoubleArg? ==> r == FromDouble(arg.d)
    ensures arg.StringArg? ==> r == FromString(arg.s)
  {
    match arg
    case IntArg(i) => FromInt(i)
    case DoubleArg(d) => FromDouble(d)
    case StringArg(s) => FromString(s)
  }

  /** `getValue()`. */
  function GetValue(n: Num): (v: Int32)
    ensures FromInt(v) == Ok(n)
  {
    n
  }

  /** `Num.getMinValue()`: the least int the constructor accepts. */
  function GetMinValue(): (m: Int32)
    ensures FromInt(m).Ok? && !FromInt(m - 1).Ok?
  {
    1
  }

  /** `Num.getMaxValue()`: the greatest int the constructor accepts. */
  function GetMaxValue(): (m: Int32)
    ensures FromInt(m).Ok? && !FromInt(m + 1).Ok?
  {
    10
  }

  /** `toString()`: `String.valueOf(value)`, which the String constructor
      reads back. */
  function ToString(n: Num): (s: string)
    ensures |s| > 0 && Decimal.AllDigits(s) && s[0] != '0' && Decimal.DigitsValue(s) == n
    ensures FromString(Some(s)) == Ok(n)
  {
    ToStringRoundTrip(n);
    Decimal.NatToDecimalRoundTrip(n);
    Decimal.NatToDecimal(n)
  }

  lemma ToStringRoundTrip(n: Num)
    ensures FromString(Some(Decimal.NatToDecimal(n))) == Ok(n)
  {
    TrimmedDigitsParse(n);
    FromStringOfInteger(Decimal.NatToDecimal(n), n);
  }

  /** Text that needs no trimming and parses to a valid value exactly is
      accepted as that value. */
  lemma FromStringOfInteger(s: string, n: Num)
    requires Decimal.Strip(s, IsTrimmed) == s && |s| > 0 && ParseDouble(s) == Some(Finite(n as real))
    ensures FromString(Some(s)) == Ok(n)
  {
    FromStringOfParsed(s, Finite(n as real));
    CheckTruncatedOfInteger(n);
  }

  /** Text that needs no trimming and parses is judged by the shared
      truncate-then-compare steps. */
  lemma FromStringOfParsed(s: string, d: Float)
    requires Decimal.Strip(s, IsTrimmed) == s && |s| > 0 && ParseDouble(s) == Some(d)
    ensures FromString(Some(s)) == CheckTruncated(d)
  {
  }

  /** A whole number in range passes the truncate-then-compare steps unchanged. */
  lemma CheckTruncatedOfInteger(n: Num)
    ensures CheckTruncated(Finite(n as real)) == Ok(n)
  {
    TruncOfInteger(n);
    assert CastToInt(Finite(n as real)) == n;
    assert !ExceedsTolerance(Finite(n as real), n);
  }

  /** The digits of a valid value need no trimming and parse to the value. */
  lemma TrimmedDigitsParse(n: Num)
    ensures var s := Decimal.NatToDecimal(n);
      Decimal.Strip(s, IsTrimmed) == s && |s| > 0 && ParseDouble(s) == Some(Finite(n as real))
  {
    var s := Decimal.NatToDecimal(n);
    assert Decimal.IsDigit(s[0]) && Decimal.IsDigit(s[|s| - 1]);
    Decimal.StripUnpadded(s, IsTrimmed);
    ParseDoubleOfNatural(n);
    assert RoundToDouble(n as real) == Finite(n as real);
  }

  // ---------------------------------------------------------------------
  // Arithmetic: int results, which never wrap for values in range

  /** `add`. */
  function Add(a: Num, b: Num): (r: Int32)
    ensures r == a + b
  {
    Wrap32(a + b)
  }

  /** `subtract`. */
  function Subtract(a: Num, b: Num): (r: Int32)
    ensures r == a - b
  {
    Wrap32(a - b)
  }

  /** `multiply`. */
  function Multiply(a: Num, b: Num): (r: Int32)
    ensures r == a * b
  {
    Wrap32(a * b)
  }

  /** `divide`: the quotient as a double. The zero-divisor guard cannot fire. */
  function Divide(a: Num, b: Num): (r: Result<real>)
    ensures r.Ok? && r.value * b as real == a as real
  {
    if b == 0 then Err(DivisionByZero) else Ok(a as real / b as real)
  }

  // ---------------------------------------------------------------------
  // Comparisons

  /** `isLessThan`. */
  function IsLessThan(a: Num, b: Num): (r: bool)
    ensures r <==> CompareTo(a, b) == -1
  {
    a < b
  }

  /** `isGreaterThan`. */
  function IsGreaterThan(a: Num, b: Num): (r: bool)
    ensures r <==> CompareTo(a, b) == 1
  {
    a > b
  }

  /** `isEqualTo`. */
  function IsEqualTo(a: Num, b: Num): (r: bool)
    ensures r <==> CompareTo(a, b) == 0
    ensures r <==> Equals(a, NumRef(b))
  {
    a == b
  }

  /** `isLessThanOrEqualTo`. */
  function IsLessThanOrEqualTo(a: Num, b: Num): (r: bool)
    ensures r <==> IsLessThan(a, b) || IsEqualTo(a, b)
  {
    a <= b
  }

  /** `isGreaterThanOrEqualTo`. */
  function IsGreaterThanOrEqualTo(a: Num, b: Num): (r: bool)
    ensures r <==> IsGreaterThan(a, b) || IsEqualTo(a, b)
  {
    a >= b
  }

  /** `isNotEqualTo`. */
  function IsNotEqualTo(a: Num, b: Num): (r: bool)
    ensures r <==> !IsEqualTo(a, b)
  {
    a != b
  }

  /** `compareTo`: `Integer.compare`, which answers -1, 0 or 1. */
  function CompareTo(a: Num, b: Num): (c: int)
    ensures c == -1 || c == 0 || c == 1
  {
    if a < b then -1 else if a == b then 0 else 1
  }

  /** The argument of `equals(Object)`: this very object, another reference
      to a Num, null, or an object of another class. */
  datatype Reference = Self | NumRef(n: Num) | Null | OtherRef

  /** `equals(Object)`. */
  function Equals(a: Num, obj: Reference): (b: bool)
    ensures obj.Self? ==> b
    ensures obj.Null? || obj.OtherRef? ==> !b
  {
    match obj
    case Self => true
    case Null => false
    case OtherRef => false
    case NumRef(n) => a == n
  }

  /** `hashCode()`: `Integer.hashCode(value)`, which is the value itself. */
  function HashCode(n: Num): (h: Int32)
    ensures h == GetValue(n)
    ensures FromInt(h) == Ok(n)
  {
    n
  }
}

=== FILE: java_properties.dfy ===
/** Properties of the Java `Num` class that relate several of its members,
    and the expected values of the `NumTest` driver in numtest.java. */
module JavaProperties {
  import opened Results
  import opened Bounded
  import opened Numeric
  import Decimal
  import opened JavaNum

  /** The comparison methods mirror integer order: exactly one of less,
      equal and greater holds, the non-strict forms are the unions,
      `isNotEqualTo` is the negation of `isEqualTo`, and the sign of
      `compareTo` agrees with all of them. */
  lemma ComparisonsAreConsistent(a: Num, b: Num)
    ensures IsLessThan(a, b) || IsEqualTo(a, b) || IsGreaterThan(a, b)
    ensures !(IsLessThan(a, b) && IsEqualTo(a, b)) && !(IsLessThan(a, b) && IsGreaterThan(a, b))
    ensures !(IsEqualTo(a, b) && IsGreaterThan(a, b))
    ensures IsLessThanOrEqualTo(a, b) <==> IsLessThan(a, b) || IsEqualTo(a, b)
    ensures IsGreaterThanOrEqualTo(a, b) <==> IsGreaterThan(a, b) || IsEqualTo(a, b)
    ensures IsNotEqualTo(a, b) <==> !IsEqualTo(a, b)
    ensures IsLessThan(a, b) <==> IsGreaterThan(b, a)
    ensures CompareTo(a, b) < 0 <==> IsLessThan(a, b)
    ensures CompareTo(a, b) == 0 <==> IsEqualTo(a, b)
    ensures CompareTo(a, b) > 0 <==> IsGreaterThan(a, b)
    ensures CompareTo(a, b) == -CompareTo(b, a)
  {
  }

  /** `equals` holds exactly for equal values, agrees with `compareTo`, and
      equal instances have equal hash codes. */
  lemma EqualsAndHashCode(a: Num, b: Num)
    ensures Equals(a, NumRef(b)) <==> a == b
    ensures Equals(a, NumRef(b)) <==> CompareTo(a, b) == 0
    ensures Equals(a, NumRef(b)) == Equals(b, NumRef(a))
    ensures Equals(a, NumRef(a))
    ensures Equals(a, NumRef(b)) ==> HashCode(a) == HashCode(b)
  {
  }

  /** No int result of `add`, `subtract` or `multiply` wraps around for
      values in range, and the division guard never fires. */
  lemma ArithmeticDoesNotWrap(a: Num, b: Num)
    ensures 2 <= Add(a, b) <= 20 && -9 <= Subtract(a, b) <= 9 && 1 <= Multiply(a, b) <= 100
    ensures Divide(a, b).Ok?
  {
  }

  /** A double at least one beyond the int range saturates in the cast,
      which leaves a difference of at least 1, so the constructor reports
      "Not a Number" rather than "Out of range"; 1e20 is such a double. */
  lemma HugeDoubleIsNotANumber(x: real)
    requires x >= MaxInt as real + 1.0 || x <= MinInt as real - 1.0
    ensures FromDouble(Finite(x)) == Err(NotANumber)
  {
    var i := CastToInt(Finite(x));
    if x >= 0.0 {
      assert i == MaxInt;
      assert x - i as real >= 1.0;
    } else {
      assert i == MinInt;
      assert i as real - x >= 1.0;
    }
  }

  lemma HugeDoubleWitness()
    ensures FromDouble(Finite(100000000000000000000.0)) == Err(NotANumber)
  {
    HugeDoubleIsNotANumber(100000000000000000000.0);
  }

  /** The check truncates first and then compares, so a value just below an
      integer is "Not a Number", while with exact reals a value above an
      integer by exactly the tolerance is still accepted. */
  lemma TruncateThenCompare()
    ensures FromDouble(Finite(2.99999999999)) == Err(NotANumber)
    ensures FromDouble(Finite(0.99999999999)) == Err(NotANumber)
    ensures FromDouble(Finite(3.0 + Tolerance)) == Ok(3)
    ensures FromDouble(Finite(3.0 - Tolerance)) == Err(NotANumber)
  {
    assert Trunc(2.99999999999) == 2;
    assert Trunc(0.99999999999) == 0;
    assert Trunc(3.0 + Tolerance) == 3;
    assert Trunc(3.0 - Tolerance) == 2;
  }

  /** The string "NaN" parses to NaN, passes the tolerance test because the
      comparison with NaN is false, and is cast to 0: "Out of range", where
      the double constructor says "Not a Number". */
  lemma NaNStringIsOutOfRange()
    ensures FromString(Some("NaN")) == Err(OutOfRange)
    ensures FromDouble(NaN) == Err(NotANumber)
    ensures FromStringChecked(Some("NaN")) == Err(NotANumber)
  {
    Decimal.StripUnpadded("NaN", IsTrimmed);
    assert Decimal.SplitSign("NaN") == (false, "NaN");
    assert ParseDouble("NaN") == Some(NaN);
  }

  /** The infinities are "Not a Number" from a string too: the cast
      saturates and the difference is infinite. */
  lemma InfinityStringIsNotANumber()
    ensures FromString(Some("Infinity")) == Err(NotANumber)
    ensures FromString(Some("-Infinity")) == Err(NotANumber)
  {
    Decimal.StripUnpadded("Infinity", IsTrimmed);
    assert Decimal.SplitSign("Infinity") == (false, "Infinity");
    assert ParseDouble("Infinity") == Some(PosInf);
    Decimal.StripUnpadded("-Infinity", IsTrimmed);
    assert Decimal.SplitSign("-Infinity") == (true, "Infinity");
    assert ParseDouble("-Infinity") == Some(NegInf);
  }

  /** Null and blank strings are "Not a Number". */
  lemma BlankStringIsNotANumber()
    ensures FromString(None) == Err(NotANumber)
    ensures FromString(Some("")) == Err(NotANumber)
    ensures FromString(Some("  ")) == Err(NotANumber)
  {
    assert Decimal.StripLeading("  ", IsTrimmed) == "";
  }

  /** The driver's first constructor case: a word is "Not a Number". */
  lemma WordStringDriverExpectation()
    ensures FromString(Some("test")) == Err(NotANumber)
  {
    Decimal.StripUnpadded("test", IsTrimmed);
    assert Decimal.Strip("test", IsTrimmed) == "test";
    assert Decimal.SplitSign("test") == (false, "test");
    var e := Decimal.FirstIndex("test", c => c == 'e' || c == 'E');
    assert e == 1;
    assert "test"[..e] == "t";
    var p := Decimal.FirstIndex("t", c => c == '.');
    assert p == 1 && "t"[..p] == "t";
    assert !Decimal.AllDigits("t");
    assert Decimal.ParseMantissa("t") == None;
    assert Decimal.ParseDecimal("test") == None;
    assert ParseDouble("test") == None;
  }

  /** The driver's "3.0" case: a point and a zero fraction are accepted. */
  lemma PointStringDriverExpectation()
    ensures FromString(Some("3.0")) == Ok(3)
  {
    Decimal.StripUnpadded("3.0", IsTrimmed);
    assert Decimal.FirstIndex("3.0", c => c == 'e' || c == 'E') == 3;
    assert Decimal.FirstIndex("3.0", c => c == '.') == 1;
    assert Decimal.ParseMantissa("3.0") == Some(3.0);
    assert Decimal.ParseDecimal("3.0") == Some(3.0);
    assert '0' !in "fFdD";
    assert ParseDouble("3.0") == Some(Finite(3.0));
    TruncOfInteger(3);
  }

  /** The driver's int constructor cases: 0 and 11 are "Out of range". */
  lemma IntConstructorDriverExpectations()
    ensures FromInt(0) == Err(OutOfRange) && FromInt(11) == Err(OutOfRange)
  {
  }

  /** The driver's "5" case: the digits of a valid value are accepted. */
  lemma DigitStringDriverExpectation()
    ensures FromString(Some("5")) == Ok(5)
  {
    assert Decimal.NatToDecimal(5) == "5";
    ToStringRoundTrip(5);
  }

  /** The driver's double constructor cases: 5.0 and 3.0 are accepted. */
  lemma DoubleConstructorDriverExpectations()
    ensures FromDouble(Finite(5.0)) == Ok(5) && FromDouble(Finite(3.0)) == Ok(3)
  {
    TruncOfInteger(3);
    TruncOfInteger(5);
  }

  /** The driver's factories: `of(7)`, `of("8")` and `of(9.0)`. */
  lemma FactoryDriverExpectations()
    ensures Of(IntArg(7)) == Ok(7)
    ensures Of(StringArg(Some("8"))) == Ok(8)
    ensures Of(DoubleArg(Finite(9.0))) == Ok(9)
  {
    assert Decimal.NatToDecimal(8) == "8";
    ToStringRoundTrip(8);
    assert FromString(Some("8")) == Ok(8);
    TruncOfInteger(9);
    assert FromDouble(Finite(9.0)) == Ok(9);
  }

  /** The driver's arithmetic and range checks. */
  lemma ArithmeticDriverExpectations()
    ensures Add(3, 4) == 7 && Subtract(3, 4) == -1 && Multiply(3, 4) == 12
    ensures Divide(3, 4) == Ok(0.75)
    ensures GetMinValue() == 1 && GetMaxValue() == 10
    ensures IsValidValue(5) && !IsValidValue(0) && !IsValidValue(11)
  {
  }
}

=== FILE: js_num.dfy ===
/** The JavaScript `Num` constructor function (basic.js; the same code
    appears at the top of advanced.js): a type and NaN check, a range check, and a
    `valueOf` through which the language's own operators compute. */
module JsNum {
  import opened Results
  import opened Numeric
  import Decimal

  /** A JavaScript value, by what `typeof` reports: a number (a double), a
      string, or anything else. */
  datatype JsValue = Number(f: Float) | Text(s: string) | OtherValue

  /** A constructed `Num`: the number stored unchanged, which need not be
      whole. */
  type Num = x: real | 1.0 <= x <= 10.0 witness 1.0

  /** `new Num(value)`: a non-number or NaN throws "Not a Number"; a number
      below 1 or above 10, the infinities included, throws "Out of range";
      anything else is stored as it is. */
  function Construct(v: JsValue): (r: Result<Num>)
    ensures r == Err(NotANumber) <==> !v.Number? || v.f.NaN?
    ensures r == Err(OutOfRange) <==>
      v.Number? && (v.f.PosInf? || v.f.NegInf? || (v.f.Finite? && (v.f.x < 1.0 || v.f.x > 10.0)))
    ensures r.Ok? <==> v.Number? && v.f.Finite? && 1.0 <= v.f.x <= 10.0
    ensures r.Ok? ==> r.value == v.f.x
  {
    match v
    case Number(f) =>
      (match f
       case NaN => Err(NotANumber)
       case NegInf => Err(OutOfRange)
       case PosInf => Err(OutOfRange)
       case Finite(x) => if x < 1.0 || x > 10.0 then Err(OutOfRange) else Ok(x))
    case _ => Err(NotANumber)
  }

  /** `valueOf()`: the stored number, which the constructor accepts again. */
  function ValueOf(n: Num): (x: real)
    ensures Construct(Number(Finite(x))) == Ok(n)
    ensures 1.0 <= x <= 10.0
  {
    n
  }

  /** A whole stored value. */
  predicate IsWhole(n: Num) {
    n.Floor as real == n
  }

  /** `toString()`: `String(this.value)`, for a whole value its decimal
      digits, which read back as the same number. */
  function ToString(n: Num): (s: string)
    requires IsWhole(n)
    ensures Decimal.ParseDecimal(s) == Some(ValueOf(n))
    ensures |s| >= 1 && Decimal.AllDigits(s)
  {
    Decimal.ParseDecimalOfNatural(n.Floor);
    Decimal.NatToDecimal(n.Floor)
  }

  // ---------------------------------------------------------------------
  // The language's operators on two instances, each operand converted
  // by `valueOf`

  /** `a + b`. */
  function Plus(a: Num, b: Num): (r: real)
    ensures r - ValueOf(b) == ValueOf(a)
    ensures 2.0 <= r <= 20.0
  {
    ValueOf(a) + ValueOf(b)
  }

  /** `a - b`. */
  function Minus(a: Num, b: Num): (r: real)
    ensures r + ValueOf(b) == ValueOf(a)
    ensures -9.0 <= r <= 9.0
  {
    ValueOf(a) - ValueOf(b)
  }

  /** `a * b`. */
  function Times(a: Num, b: Num): (r: real)
    ensures 1.0 <= r <= 100.0
    ensures r >= ValueOf(a) && r >= ValueOf(b)
  {
    var x, y := ValueOf(a), ValueOf(b);
    ProductOfNonnegatives(x, y - 1.0);
    ProductOfNonnegatives(x - 1.0, y);
    x * y
  }

  lemma ProductOfNonnegatives(u: real, v: real)
    requires u >= 0.0 && v >= 0.0
    ensures u * v >= 0.0
  {
  }

  /** `a / b`: never a division by zero, since every stored value is at least 1. */
  function Divide(a: Num, b: Num): (r: real)
    ensures r * ValueOf(b) == ValueOf(a)
    ensures 0.1 <= r <= 10.0
  {
    ValueOf(a) / ValueOf(b)
  }

  /** `a < b`: the difference is negative. */
  function Less(a: Num, b: Num): (r: bool)
    ensures r <==> Minus(a, b) < 0.0
  {
    ValueOf(a) < ValueOf(b)
  }

  /** `a > b`: the difference is positive. */
  function Greater(a: Num, b: Num): (r: bool)
    ensures r <==> Minus(a, b) > 0.0
  {
    ValueOf(a) > ValueOf(b)
  }

  /** `a <= b`: the complement of `>`. */
  function LessEq(a: Num, b: Num): (r: bool)
    ensures r <==> !Greater(a, b)
  {
    ValueOf(a) <= ValueOf(b)
  }

  /** `a >= b`: the complement of `<`. */
  function GreaterEq(a: Num, b: Num): (r: bool)
    ensures r <==> !Less(a, b)
  {
    ValueOf(a) >= ValueOf(b)
  }
}

=== FILE: js_properties.dfy ===
/** Properties of the JavaScript `Num` and the expected values of the test
    suite in advanced.js. */
module JsProperties {
  import opened Results
  import opened Numeric
  import opened JsNum

  /** The ordering operators mirror the order of the stored values: exactly
      one of less, equal and greater holds, and the non-strict forms are the
      unions. */
  lemma ComparisonsAreConsistent(a: Num, b: Num)
    ensures Less(a, b) || a == b || Greater(a, b)
    ensures !(Less(a, b) && Greater(a, b))
    ensures LessEq(a, b) <==> Less(a, b) || a == b
    ensures GreaterEq(a, b) <==> Greater(a, b) || a == b
    ensures Less(a, b) <==> Greater(b, a)
  {
  }

  /** Arithmetic on two instances equals arithmetic on the numbers they were
      built from. */
  lemma ArithmeticOnConstructed(x: real, y: real)
    requires Construct(Number(Finite(x))).Ok? && Construct(Number(Finite(y))).Ok?
    ensures var a, b := Construct(Number(Finite(x))).value, Construct(Number(Finite(y))).value;
      Plus(a, b) == x + y && Minus(a, b) == x - y && Times(a, b) == x * y && Divide(a, b) == x / y
      && (Less(a, b) <==> x < y) && (Greater(a, b) <==> x > y)
  {
  }

  /** There is no whole-number check: every number in [1, 10] is accepted as
      it is, 5.5 among them. */
  lemma FractionIsAccepted()
    ensures Construct(Number(Finite(5.5))) == Ok(5.5)
    ensures Construct(Number(Finite(1.0))) == Ok(1.0)
  {
  }

  /** A string is not a number, even one that spells a valid value; NaN is
      "Not a Number" and the infinities are "Out of range". */
  lemma NonNumbersAndSpecialValues()
    ensures Construct(Text("5")) == Err(NotANumber)
    ensures Construct(OtherValue) == Err(NotANumber)
    ensures Construct(Number(NaN)) == Err(NotANumber)
    ensures Construct(Number(PosInf)) == Err(OutOfRange)
    ensures Construct(Number(NegInf)) == Err(OutOfRange)
  {
  }

  /** The suite's constructor cases: a word is "Not a Number"; 0, -5 and 20
      are "Out of range". */
  lemma ConstructorSuiteExpectations()
    ensures Construct(Number(Finite(4.0))).Ok?
    ensures Construct(Text("test")) == Err(NotANumber)
    ensures Construct(Number(Finite(0.0))) == Err(OutOfRange)
    ensures Construct(Number(Finite(-5.0))) == Err(OutOfRange)
    ensures Construct(Number(Finite(20.0))) == Err(OutOfRange)
  {
  }

  /** The suite's case "TypeError for value 10" expects a throw, but the
      range check is inclusive: 10 is accepted. */
  lemma TenIsAccepted()
    ensures Construct(Number(Finite(10.0))) == Ok(10.0)
  {
  }

  /** The suite's operator cases: 3+4, 3-4, 3*4, 3/4, 3<4, 3>4 and the
      rendering of 5. */
  lemma OperatorSuiteExpectations()
    ensures Plus(3.0, 4.0) == 7.0 && Minus(3.0, 4.0) == -1.0
    ensures Times(3.0, 4.0) == 12.0 && Divide(3.0, 4.0) == 0.75
    ensures Less(3.0, 4.0) && !Greater(3.0, 4.0)
    ensures ToString(5.0) == "5"
  {
    assert (5.0).Floor == 5;
  }
}

=== FILE: numeric.dfy ===
/** Exact arithmetic standing in for the machine numbers of the three sources. */
module Numeric {

  /** A floating-point value: a finite number (taken exactly), NaN or an infinity. */
  datatype Float = Finite(x: real) | NaN | PosInf | NegInf

  /** The literal `1e-10` of the whole-number checks, taken as the exact real 10^-10. */
  const Tolerance: real := 0.0000000001

  function Abs(x: real): (r: real)
    ensures r >= 0.0
    ensures r == x || r == -x
  {
    if x < 0.0 then -x else x
  }

  function IntAbs(i: int): (r: nat)
    ensures r == i || r == -i
  {
    if i < 0 then -i else i
  }

  /** `b` raised to the power `e`. */
  function Power(b: int, e: nat): (p: int)
    ensures b >= 1 ==> p >= 1
  {
    if e == 0 then 1
    else
      var q := Power(b, e - 1);
      assert b >= 1 ==> b * q >= q;
      b * q
  }
  /** Adding exponents multiplies powers. */
  lemma {:induction false} PowerOfSum(b: int, j: nat, k: nat)
    ensures Power(b, j + k) == Power(b, j) * Power(b, k)
  {
    if k > 0 {
      PowerOfSum(b, j, k - 1);
      calc {
        Power(b, j + k);
        b * Power(b, j + k - 1);
        b * (Power(b, j) * Power(b, k - 1));
        Power(b, j) * (b * Power(b, k - 1));
        Power(b, j) * Power(b, k);
      }
    }
  }


  /** Half a unit in the last place above the largest finite double, that is
      2^1024 - 2^970: the least magnitude that rounding to the nearest double
      sends to infinity, and the least magnitude of a Python int that
      conversion to float refuses. */
  const OverflowBound: int := 179769313486231580793728971405303415079934132710037826936173778980444968292764750946649017977587207096330286416692887910946555547851940402630657488671505820681908902000708383676273854845817711531764475730270069855571366959622842914819860834936475292719074168444365510704342711559699508093042880177904174497792

  /** Rounding an exact decimal value to a double, as a string parser does.
      Only overflow to an infinity is modelled; a finite result keeps the exact value. */
  function RoundToDouble(x: real): (f: Float)
    ensures !f.NaN?
    ensures f.Finite? <==> -(OverflowBound as real) < x < OverflowBound as real
    ensures f.Finite? ==> f.x == x
    ensures f.PosInf? ==> x > 0.0
    ensures f.NegInf? ==> x < 0.0
  {
    if x >= OverflowBound as real then PosInf
    else if x <= -(OverflowBound as real) then NegInf
    else Finite(x)
  }

  /** Rounding toward zero: Python's `int(x)` on a float, and the first step of
      Java's narrowing `(int)` cast. */
  function Trunc(x: real): (t: int)
    ensures 0.0 <= x ==> t as real <= x < t as real + 1.0
    ensures x < 0.0 ==> t as real - 1.0 < x <= t as real
  {
    if x >= 0.0 then x.Floor else -((-x).Floor)
  }

  lemma TruncOfInteger(i: int)
    ensures Trunc(i as real) == i
  {
  }
}

=== FILE: py_num.dfy ===
/** The Python `Num` class (num.py): validated construction from None, str,
    int, float, complex or any other object, and the operator layer on top. */
module PyNum {
  import opened Results
  import opened Bounded
  import opened Numeric
  import Decimal

  /** The argument of `Num(value)`, tagged by the branch of the type dispatch
      in `_validate_and_convert` that handles it. */
  datatype PyValue =
    | PyNone
    | PyStr(s: string)
    | PyInt(i: int)
    | PyFloat(f: Float)
    | PyComplex(re: Float, im: Float)
    | PyOther                        // an object that is neither str nor a number

  /** What `_validate_numeric_value` receives: an int or a float. */
  datatype PyReal = RInt(i: int) | RFloat(f: Float)

  /** The right operand of a binary operator: a Num instance or any other object. */
  datatype Operand = NumOperand(n: Num) | Foreign

  /** The Python exception class each error is raised as. */
  datatype PyException = TypeError | ZeroDivisionError | OverflowError

  function RaisedAs(e: Error): PyException {
    match e
    case DivisionByZero => ZeroDivisionError
    case Overflow => OverflowError
    case _ => TypeError
  }

  /** The characters `str.strip()` removes, restricted to ASCII: tab, line
      feed, vertical tab, form feed, carriage return, the four separators
      0x1C-0x1F and space. */
  predicate IsSpace(c: char) {
    9 <= c as int <= 13 || 28 <= c as int <= 32
  }

  // ---------------------------------------------------------------------
  // The whole-number check

  /** Python's `round(x)`: the nearest integer, a tie going to the even one. */
  function Round(x: real): (n: int)
    ensures Abs(x - n as real) <= 0.5
    ensures Abs(x - n as real) == 0.5 ==> n % 2 == 0
  {
    var f := x.Floor;
    var d := x - f as real;
    if d < 0.5 then f else if d > 0.5 then f + 1 else if f % 2 == 0 then f else f + 1
  }

  /** The distance from `x` to the closest integer: the smaller of its
      distances to the integers just below and just above it. */
  function DistanceToInteger(x: real): real {
    var below := x - x.Floor as real;
    var above := (x.Floor + 1) as real - x;
    if below <= above then below else above
  }

  /** `round` lands on a nearest integer, so how it breaks ties cannot change
      the outcome of the whole-number check. */
  lemma RoundIsNearest(x: real)
    ensures Abs(x - Round(x) as real) == DistanceToInteger(x)
  {
  }

  /** `_is_whole_number`: `abs(value - round(value)) < 1e-10`. */
  function IsWholeNumber(x: real): (b: bool)
    ensures b <==> DistanceToInteger(x) < Tolerance
  {
    RoundIsNearest(x);
    Abs(x - Round(x) as real) < Tolerance
  }

  /** The whole-number check, truncation by `int()` and the range check of
      `_validate_numeric_value`, on a finite value. */
  function CheckWholeInRange(x: real): (r: Result<Num>)
    ensures r.Ok? <==> DistanceToInteger(x) < Tolerance && MinValue <= Trunc(x) <= MaxValue
    ensures r.Ok? ==> r.value == Trunc(x)
    ensures r == Err(NotANumber) <==> DistanceToInteger(x) >= Tolerance
    ensures r.Err? ==> r.error == NotANumber || r.error == OutOfRange
  {
    if !IsWholeNumber(x) then Err(NotANumber)
    else
      var n := Trunc(x);
      if n < MinValue || n > MaxValue then Err(OutOfRange) else Ok(n)
  }

  /** The whole-number and range checks as the whole-number test intends
      them: the stored value is the integer the input lies within tolerance
      of, which `round` finds and truncation by `int()` misses for an input
      just below an integer. */
  function CheckWholeInRangeRounded(x: real): (r: Result<Num>)
    ensures r.Ok? ==> Abs(x - r.value as real) < Tolerance
    ensures r.Ok? <==> DistanceToInteger(x) < Tolerance && MinValue <= Round(x) <= MaxValue
    ensures r == Err(NotANumber) <==> DistanceToInteger(x) >= Tolerance
  {
    if !IsWholeNumber(x) then Err(NotANumber)
    else
      var n := Round(x);
      RoundIsNearest(x);
      if n < MinValue || n > MaxValue then Err(OutOfRange) else Ok(n)
  }

  /** `_validate_numeric_value`. On an int, `math.isnan` first converts it to
      float and raises OverflowError when it is too large for a double. */
  function ValidateNumeric(v: PyReal): (r: Result<Num>)
    ensures v.RInt? ==> (r.Ok? <==> MinValue <= v.i <= MaxValue)
    ensures v.RInt? && r.Ok? ==> r.value == v.i
    ensures v.RInt? ==> (r == Err(Overflow) <==> v.i >= OverflowBound || v.i <= -OverflowBound)
    ensures v.RInt? && r.Err? ==> r.error == OutOfRange || r.error == Overflow
    ensures v.RFloat? ==>
      (r.Ok? <==> v.f.Finite? && DistanceToInteger(v.f.x) < Tolerance && MinValue <= Trunc(v.f.x) <= MaxValue)
    ensures v.RFloat? ==>
      (r == Err(NotANumber) <==> !v.f.Finite? || DistanceToInteger(v.f.x) >= Tolerance)
    ensures v.RFloat? && r.Ok? ==> r.value == Trunc(v.f.x)
    ensures v.RFloat? && r.Err? ==> r.error == NotANumber || r.error == OutOfRange
  {
    match v
    case RInt(i) =>
      if i >= OverflowBound || i <= -OverflowBound then Err(Overflow)
      else CheckWholeInRange(i as real)
    case RFloat(Finite(x)) => CheckWholeInRange(x)
    case RFloat(_) => Err(NotANumber)
  }

  // ---------------------------------------------------------------------
  // Construction

  /** `float(text)`: `nan`, `inf` or `infinity` in any letter case after an
      optional sign, or a decimal number rounded to a double. */
  function ParseFloat(t: string): (p: Option<Float>)
    ensures p == Some(NaN) <==> Decimal.LowerAscii(Decimal.SplitSign(t).1) == "nan"
    ensures p.Some? && p.value.Finite? ==> Decimal.ParseDecimal(t) == Some(p.value.x)
    ensures p.Some? && !p.value.NaN? && !p.value.Finite? ==>
      Decimal.LowerAscii(Decimal.SplitSign(t).1) in {"inf", "infinity"}
      || (Decimal.ParseDecimal(t).Some? && Abs(Decimal.ParseDecimal(t).value) >= OverflowBound as real)
    ensures Decimal.LowerAscii(Decimal.SplitSign(t).1) in {"inf", "infinity"} ==>
      p == Some(if Decimal.SplitSign(t).0 then NegInf else PosInf)
    ensures Decimal.ParseDecimal(t).Some? ==> p == Some(RoundToDouble(Decimal.ParseDecimal(t).value))
    ensures p.None? <==>
      Decimal.LowerAscii(Decimal.SplitSign(t).1) !in {"nan", "inf", "infinity"} && Decimal.ParseDecimal(t).None?
  {
    DecimalIsNoName(t);
    var (negative, body) := Decimal.SplitSign(t);
    var name := Decimal.LowerAscii(body);
    if name == "nan" then Some(NaN)
    else if name == "inf" || name == "infinity" then Some(if negative then NegInf else PosInf)
    else
      match Decimal.ParseDecimal(t)
      case None => None
      case Some(x) => Some(RoundToDouble(x))
  }

  /** Decimal text that parses is never spelled `nan`, `inf` or `infinity`. */
  lemma DecimalIsNoName(t: string)
    ensures Decimal.ParseDecimal(t).Some? ==>
      Decimal.LowerAscii(Decimal.SplitSign(t).1) !in {"nan", "inf", "infinity"}
  {
    if Decimal.ParseDecimal(t).Some? {
      Decimal.DecimalStart(t);
      var body := Decimal.SplitSign(t).1;
      assert Decimal.LowerAscii(body)[0] == body[0];
    }
  }

  lemma ParseFloatOfNatural(n: nat)
    ensures ParseFloat(Decimal.NatToDecimal(n)) == Some(RoundToDouble(n as real))
  {
    var s := Decimal.NatToDecimal(n);
    assert Decimal.SplitSign(s) == (false, s);
    var name := Decimal.LowerAscii(s);
    assert name[0] == s[0] && Decimal.IsDigit(s[0]);
    Decimal.ParseDecimalOfNatural(n);
  }

  /** `Num(value)`, that is `_validate_and_convert`. */
  function Construct(v: PyValue): (r: Result<Num>)
    ensures v.PyNone? || v.PyOther? ==> r == Err(NotANumber)
    ensures v.PyInt? ==> (r.Ok? <==> MinValue <= v.i <= MaxValue)
    ensures v.PyInt? && r.Ok? ==> r.value == v.i
    ensures v.PyFloat? && !v.f.Finite? ==> r == Err(NotANumber)
    ensures v.PyFloat? && r.Ok? ==> v.f.Finite? && r.value == Trunc(v.f.x)
    ensures v.PyComplex? && v.im != Finite(0.0) ==> r == Err(NotANumber)
    ensures v.PyComplex? && v.im == Finite(0.0) ==> r == ValidateNumeric(RFloat(v.re))
    ensures r == Err(Overflow) ==> v.PyInt?
    ensures r.Err? ==> r.error == NotANumber || r.error == OutOfRange || r.error == Overflow
  {
    match v
    case PyNone => Err(NotANumber)
    case PyStr(s) =>
      (match ParseFloat(Decimal.Strip(s, IsSpace))
       case None => Err(NotANumber)
       case Some(f) => ValidateNumeric(RFloat(f)))
    case PyInt(i) => ValidateNumeric(RInt(i))
    case PyFloat(f) => ValidateNumeric(RFloat(f))
    case PyComplex(re, im) =>
      if im != Finite(0.0) then Err(NotANumber) else ValidateNumeric(RFloat(re))
    case PyOther => Err(NotANumber)
  }

  /** `Num.from_string`. Only a parse failure becomes "Not a Number" here: a
      number that parses goes through the float checks, and their
      "Out of range" passes through the `except` clause unchanged. */
  function FromString(s: string): (r: Result<Num>)
    ensures ParseFloat(Decimal.Strip(s, IsSpace)).None? ==> r == Err(NotANumber)
    ensures var p := ParseFloat(Decimal.Strip(s, IsSpace)); p.Some? ==> r == FromFloat(p.value)
  {
    Construct(PyStr(s))
  }

  /** `Num.from_int`. */
  function FromInt(i: int): (r: Result<Num>)
    ensures r.Ok? <==> MinValue <= i <= MaxValue
    ensures r.Ok? ==> r.value == i
    ensures r.Err? ==> (r.error == Overflow <==> i >= OverflowBound || i <= -OverflowBound)
    ensures r.Err? ==> r.error == OutOfRange || r.error == Overflow
  {
    Construct(PyInt(i))
  }

  /** `Num.from_float`. */
  function FromFloat(f: Float): (r: Result<Num>)
    ensures r.Ok? <==> f.Finite? && DistanceToInteger(f.x) < Tolerance && MinValue <= Trunc(f.x) <= MaxValue
    ensures r.Ok? ==> r.value == Trunc(f.x)
    ensures r == Err(NotANumber) <==> !f.Finite? || DistanceToInteger(f.x) >= Tolerance
    ensures r.Err? ==> r.error == NotANumber || r.error == OutOfRange
  {
    Construct(PyFloat(f))
  }

  /** `Num.is_valid_value` as written: it catches only TypeError, so the
      OverflowError of a huge int escapes instead of giving False. */
  function IsValidValue(v: PyValue): (r: Result<bool>)
    ensures r.Ok? ==> (r.value <==> Construct(v).Ok?)
    ensures r.Err? <==> Construct(v) == Err(Overflow)
  {
    match Construct(v)
    case Ok(_) => Ok(true)
    case Err(e) => if RaisedAs(e) == TypeError then Ok(false) else Err(e)
  }

  /** `is_valid_value` as its documentation promises: a verdict for every
      input, the same one construction gives. */
  function IsValidValueTotal(v: PyValue): (b: bool)
    ensures b <==> Construct(v).Ok?
    ensures v.PyInt? ==> (b <==> MinValue <= v.i <= MaxValue)
  {
    match IsValidValue(v)
    case Ok(valid) => valid
    case Err(_) => false
  }

  /** `Num.get_min_value`: the least int construction accepts. */
  function GetMinValue(): (m: int)
    ensures Construct(PyInt(m)).Ok? && !Construct(PyInt(m - 1)).Ok?
  {
    MinValue
  }

  /** `Num.get_max_value`: the greatest int construction accepts. */
  function GetMaxValue(): (m: int)
    ensures Construct(PyInt(m)).Ok? && !Construct(PyInt(m + 1)).Ok?
  {
    MaxValue
  }

  // ---------------------------------------------------------------------
  // Conversions and unary operators

  /** `str(n)`: the decimal digits of the value, without a sign, a point or
      a leading zero. */
  function Str(n: Num): (s: string)
    ensures |s| > 0 && Decimal.AllDigits(s) && s[0] != '0' && Decimal.DigitsValue(s) == n
    ensures Construct(PyStr(s)) == Ok(n)
  {
    StrRoundTrip(n);
    Decimal.NatToDecimalRoundTrip(n);
    Decimal.NatToDecimal(n)
  }

  lemma StrRoundTrip(n: Num)
    ensures Construct(PyStr(Decimal.NatToDecimal(n))) == Ok(n)
  {
    var s := Decimal.NatToDecimal(n);
    Decimal.StripUnpadded(s, IsSpace);
    assert Decimal.Strip(s, IsSpace) == s;
    ParseFloatOfNatural(n);
    assert RoundToDouble(n as real) == Finite(n as real);
    assert ParseFloat(s) == Some(Finite(n as real));
    TruncOfInteger(n);
    assert ValidateNumeric(RFloat(Finite(n as real))) == Ok(n);
  }

  /** `int(n)`. */
  function ToInt(n: Num): (i: int)
    ensures Construct(PyInt(i)) == Ok(n)
  {
    n
  }

  /** `float(n)`. */
  function ToFloat(n: Num): (x: real)
    ensures x == x.Floor as real
    ensures Construct(PyFloat(Finite(x))) == Ok(n)
  {
    n as real
  }

  /** `bool(n)`: `value != 0`, which no valid instance violates. */
  function Bool(n: Num): (b: bool)
    ensures b
  {
    n != 0
  }

  /** `abs(n)`: a new Num built from the absolute value. */
  function AbsNum(n: Num): (r: Result<Num>)
    ensures r == Ok(n)
  {
    Construct(PyInt(IntAbs(n)))
  }

  /** `-n`: a new Num built from the negated value, which is never in range. */
  function Negate(n: Num): (r: Result<Num>)
    ensures r == Err(OutOfRange)
  {
    Construct(PyInt(-(n as int)))
  }

  /** `+n`: a new Num built from the same value. */
  function Positive(n: Num): (r: Result<Num>)
    ensures r == Ok(n)
  {
    Construct(PyInt(n))
  }

  /** `n.copy()`: a new Num built from the same value. */
  function Copy(n: Num): (r: Result<Num>)
    ensures r.Ok? && r.value == n
  {
    Construct(PyInt(n))
  }

  // ---------------------------------------------------------------------
  // Binary operators

  /** Python's `a // b`: the floor of the exact quotient. */
  function FloorDivInt(a: int, b: int): (q: int)
    requires b != 0
    ensures b > 0 ==> q * b <= a < (q + 1) * b
    ensures b < 0 ==> (q + 1) * b < a <= q * b
  {
    if b > 0 then a / b else (-a) / (-b)
  }

  /** Python's `a % b`: the remainder that goes with `//`, with the sign of `b`. */
  function FloorModInt(a: int, b: int): (m: int)
    requires b != 0
    ensures a == FloorDivInt(a, b) * b + m
    ensures b > 0 ==> 0 <= m < b
    ensures b < 0 ==> b < m <= 0
  {
    a - FloorDivInt(a, b) * b
  }

  /** `a + b`: the exact sum, not validated into the range. */
  function Add(a: Num, b: Operand): (r: Result<int>)
    ensures r.Err? <==> b.Foreign?
    ensures r.Err? ==> r.error == TypeMismatch("Can only add Num instances")
    ensures r.Ok? ==> r.value == a + b.n && 2 <= r.value <= 20
  {
    if !b.NumOperand? then Err(TypeMismatch("Can only add Num instances")) else Ok(a + b.n)
  }

  /** `a - b`: the exact difference, not validated into the range. */
  function Subtract(a: Num, b: Operand): (r: Result<int>)
    ensures r.Err? <==> b.Foreign?
    ensures r.Err? ==> r.error == TypeMismatch("Can only subtract Num instances")
    ensures r.Ok? ==> r.value + b.n == a && -9 <= r.value <= 9
  {
    if !b.NumOperand? then Err(TypeMismatch("Can only subtract Num instances")) else Ok(a - b.n)
  }

  /** `a * b`: the exact product, not validated into the range. */
  function Multiply(a: Num, b: Operand): (r: Result<int>)
    ensures r.Err? <==> b.Foreign?
    ensures r.Err? ==> r.error == TypeMismatch("Can only multiply Num instances")
    ensures r.Ok? ==> r.value == a * b.n && 1 <= r.value <= 100
  {
    if !b.NumOperand? then Err(TypeMismatch("Can only multiply Num instances")) else Ok(a * b.n)
  }

  /** `a / b`: the exact quotient. The zero-divisor guard cannot fire. */
  function TrueDivide(a: Num, b: Operand): (r: Result<real>)
    ensures r.Err? <==> b.Foreign?
    ensures r.Err? ==> r.error == TypeMismatch("Can only divide Num instances")
    ensures r.Ok? ==> r.value * b.n as real == a as real
  {
    if !b.NumOperand? then Err(TypeMismatch("Can only divide Num instances"))
    else if b.n == 0 then Err(DivisionByZero)
    else Ok(a as real / b.n as real)
  }

  /** `a // b`. The zero-divisor guard cannot fire. */
  function FloorDivide(a: Num, b: Operand): (r: Result<int>)
    ensures r.Err? <==> b.Foreign?
    ensures r.Err? ==> r.error == TypeMismatch("Can only divide Num instances")
    ensures r.Ok? ==> r.value * b.n <= a < (r.value + 1) * b.n
  {
    if !b.NumOperand? then Err(TypeMismatch("Can only divide Num instances"))
    else if b.n == 0 then Err(DivisionByZero)
    else Ok(FloorDivInt(a, b.n))
  }

  /** `a % b`. The zero-divisor guard cannot fire. */
  function Modulo(a: Num, b: Operand): (r: Result<int>)
    ensures r.Err? <==> b.Foreign?
    ensures r.Err? ==> r.error == TypeMismatch("Can only modulo Num instances")
    ensures r.Ok? ==> 0 <= r.value < b.n
  {
    if !b.NumOperand? then Err(TypeMismatch("Can only modulo Num instances"))
    else if b.n == 0 then Err(DivisionByZero)
    else Ok(FloorModInt(a, b.n))
  }

  /** `a ** b`: the exact power, not validated into the range, and at least
      the base since the exponent is at least 1. */
  function Pow(a: Num, b: Operand): (r: Result<int>)
    ensures r.Err? <==> b.Foreign?
    ensures r.Err? ==> r.error == TypeMismatch("Can only exponentiate Num instances")
    ensures r.Ok? ==> r.value == Power(a, b.n) && r.value >= a
  {
    if !b.NumOperand? then Err(TypeMismatch("Can only exponentiate Num instances"))
    else
      var rest := Power(a, b.n - 1);
      assert a * rest >= a;
      Ok(Power(a, b.n))
  }

  /** `a < b`. */
  function Less(a: Num, b: Operand): (r: Result<bool>)
    ensures r.Err? <==> b.Foreign?
    ensures r.Err? ==> r.error == TypeMismatch("Can only compare Num instances")
    ensures r.Ok? ==> (r.value <==> a < b.n)
  {
    if !b.NumOperand? then Err(TypeMismatch("Can only compare Num instances")) else Ok(a < b.n)
  }

  /** `a <= b`. */
  function LessEq(a: Num, b: Operand): (r: Result<bool>)
    ensures r.Err? <==> b.Foreign?
    ensures r.Err? ==> r.error == TypeMismatch("Can only compare Num instances")
    ensures r.Ok? ==> (r.value <==> a <= b.n)
  {
    if !b.NumOperand? then Err(TypeMismatch("Can only compare Num instances")) else Ok(a <= b.n)
  }

  /** `a > b`. */
  function Greater(a: Num, b: Operand): (r: Result<bool>)
    ensures r.Err? <==> b.Foreign?
    ensures r.Err? ==> r.error == TypeMismatch("Can only compare Num instances")
    ensures r.Ok? ==> (r.value <==> a > b.n)
  {
    if !b.NumOperand? then Err(TypeMismatch("Can only compare Num instances")) else Ok(a > b.n)
  }

  /** `a >= b`. */
  function GreaterEq(a: Num, b: Operand): (r: Result<bool>)
    ensures r.Err? <==> b.Foreign?
    ensures r.Err? ==> r.error == TypeMismatch("Can only compare Num instances")
    ensures r.Ok? ==> (r.value <==> a >= b.n)
  {
    if !b.NumOperand? then Err(TypeMismatch("Can only compare Num instances")) else Ok(a >= b.n)
  }

  /** `a == other`: false for an object that is not a Num, instead of an error. */
  function Equal(a: Num, other: Operand): (b: bool)
    ensures other.Foreign? ==> !b
    ensures other.NumOperand? ==> (b <==> a == other.n)
  {
    other.NumOperand? && a == other.n
  }

  /** `a != other`: the negation of `==`. */
  function NotEqual(a: Num, other: Operand): (b: bool)
    ensures b <==> !Equal(a, other)
  {
    !Equal(a, other)
  }
}

=== FILE: py_properties.dfy ===
/** Properties of the Python `Num` class that relate several of its members,
    and the expected values of the test suite in num.py. */
module PyProperties {
  import opened Results
  import opened Bounded
  import opened Numeric
  import Decimal
  import opened PyNum

  /** The ordering operators mirror integer order: exactly one of `<`, `==`,
      `>` holds, `<=` and `>=` are their unions, and `>` is `<` flipped. */
  lemma OrderingIsConsistent(a: Num, b: Num)
    ensures Less(a, NumOperand(b)).Ok? && Greater(a, NumOperand(b)).Ok?
    ensures var lt, gt, eq := Less(a, NumOperand(b)).value, Greater(a, NumOperand(b)).value, Equal(a, NumOperand(b));
      (lt || eq || gt) && !(lt && eq) && !(lt && gt) && !(eq && gt)
    ensures LessEq(a, NumOperand(b)) == Ok(Less(a, NumOperand(b)).value || Equal(a, NumOperand(b)))
    ensures GreaterEq(a, NumOperand(b)) == Ok(Greater(a, NumOperand(b)).value || Equal(a, NumOperand(b)))
    ensures Less(a, NumOperand(b)) == Greater(b, NumOperand(a))
    ensures Equal(a, NumOperand(b)) == Equal(b, NumOperand(a))
  {
  }

  /** An operand that is not a Num: every arithmetic and ordering operator
      fails with a type error, while `==` answers false and `!=` true. */
  lemma ForeignOperand(a: Num)
    ensures Add(a, Foreign).Err? && Subtract(a, Foreign).Err? && Multiply(a, Foreign).Err?
    ensures TrueDivide(a, Foreign).Err? && FloorDivide(a, Foreign).Err? && Modulo(a, Foreign).Err?
    ensures Pow(a, Foreign).Err?
    ensures Less(a, Foreign).Err? && LessEq(a, Foreign).Err? && Greater(a, Foreign).Err? && GreaterEq(a, Foreign).Err?
    ensures RaisedAs(Less(a, Foreign).error) == TypeError && RaisedAs(Add(a, Foreign).error) == TypeError
    ensures !Equal(a, Foreign) && NotEqual(a, Foreign)
  {
  }

  /** `//` and `%` on valid instances satisfy the division identity with a
      remainder in `[0, b)`; `//` is the floor of `/`; the zero-divisor guard
      of all three never fires. */
  lemma DivisionIdentity(a: Num, b: Num)
    ensures FloorDivide(a, NumOperand(b)).Ok? && Modulo(a, NumOperand(b)).Ok? && TrueDivide(a, NumOperand(b)).Ok?
    ensures a == FloorDivide(a, NumOperand(b)).value * b + Modulo(a, NumOperand(b)).value
    ensures FloorDivide(a, NumOperand(b)).value == TrueDivide(a, NumOperand(b)).value.Floor
  {
    var q := FloorDivide(a, NumOperand(b)).value;
    FloorOfQuotient(a, b, q);
  }

  lemma FloorOfQuotient(a: int, b: int, q: int)
    requires b > 0 && q * b <= a < (q + 1) * b
    ensures (a as real / b as real).Floor == q
  {
    var br := b as real;
    var r := a - q * b;
    assert 0 <= r < b;
    var f := r as real / br;
    assert f * br == r as real;
    assert 0.0 <= f < 1.0;
    var y := q as real + f;
    assert y * br == q as real * br + f * br;
    assert (q * b) as real == q as real * br;
    assert a as real == y * br;
    QuotientOfProduct(y, br);
  }

  lemma QuotientOfProduct(y: real, b: real)
    requires b > 0.0
    ensures (y * b) / b == y
  {
  }

  /** `**` is repeated `*`: a first power is the base, a square is the
      product `a * a`, and raising the exponent by one multiplies by the base. */
  lemma PowIsRepeatedMultiplication(a: Num, k: Num)
    ensures Pow(a, NumOperand(1)) == Ok(a as int)
    ensures Pow(a, NumOperand(2)) == Multiply(a, NumOperand(a))
    ensures k < 10 ==> Pow(a, NumOperand(k + 1)).value == a * Pow(a, NumOperand(k)).value
  {
    assert Power(a, 1) == a * Power(a, 0) == a;
    assert Power(a, 2) == a * Power(a, 1) == a * a;
    assert Power(a, k + 1) == a * Power(a, k);
  }

  /** Exponents add: `a ** (j + k) == (a ** j) * (a ** k)` whenever `j + k` is
      itself a valid exponent. */
  lemma PowOfSum(a: Num, j: Num, k: Num)
    requires j + k <= 10
    ensures Pow(a, NumOperand(j + k)).value == Pow(a, NumOperand(j)).value * Pow(a, NumOperand(k)).value
  {
    PowerOfSum(a, j, k);
  }

  /** `**` is not validated into the range: `Num(10) ** Num(10)` is ten
      billion. */
  lemma PowLeavesTheRange()
    ensures Pow(10, NumOperand(10)) == Ok(10000000000)
    ensures Pow(2, NumOperand(4)) == Ok(16)
  {
    PowerOfSum(10, 5, 5);
    assert Power(10, 5) == 100000;
  }

  /** Every valid value is accepted, with itself as the stored value, from an
      int, a float, a complex with zero imaginary part and its decimal string. */
  lemma ValidValueAcceptedFromEveryKind(n: Num)
    ensures Construct(PyInt(n)) == Ok(n)
    ensures Construct(PyFloat(Finite(n as real))) == Ok(n)
    ensures Construct(PyComplex(Finite(n as real), Finite(0.0))) == Ok(n)
    ensures Construct(PyStr(Str(n))) == Ok(n)
  {
    TruncOfInteger(n);
  }

  /** The string path agrees with the int path on the decimal rendering of
      any natural number a double can hold, so "Out of range" from the string
      "11" passes through unchanged. */
  lemma DecimalStringActsAsInt(k: nat)
    requires k < OverflowBound
    ensures Construct(PyStr(Decimal.NatToDecimal(k))) == Construct(PyInt(k))
  {
    var s := Decimal.NatToDecimal(k);
    Decimal.StripUnpadded(s, IsSpace);
    ParseFloatOfNatural(k);
    assert RoundToDouble(k as real) == Finite(k as real);
    assert ParseFloat(Decimal.Strip(s, IsSpace)) == Some(Finite(k as real));
    assert Construct(PyStr(s)) == ValidateNumeric(RFloat(Finite(k as real)));
    assert ValidateNumeric(RFloat(Finite(k as real))) == CheckWholeInRange(k as real);
    assert Construct(PyInt(k)) == CheckWholeInRange(k as real);
  }

  /** The whole-number check runs before the range check: a fraction is
      "Not a Number" even when it also lies out of range. */
  lemma FractionIsNotANumber()
    ensures Construct(PyFloat(Finite(3.14))) == Err(NotANumber)
    ensures Construct(PyFloat(Finite(11.5))) == Err(NotANumber)
    ensures Construct(PyFloat(Finite(-0.5))) == Err(NotANumber)
  {
    assert (3.14).Floor == 3;
    assert (11.5).Floor == 11;
    assert (-0.5).Floor == -1;
  }

  /** NaN, the infinities, None, other objects and a complex with a nonzero
      imaginary part are all "Not a Number". */
  lemma NonNumbersAreNotANumber(re: Float)
    ensures Construct(PyFloat(NaN)) == Err(NotANumber)
    ensures Construct(PyFloat(PosInf)) == Err(NotANumber)
    ensures Construct(PyFloat(NegInf)) == Err(NotANumber)
    ensures Construct(PyNone) == Err(NotANumber)
    ensures Construct(PyOther) == Err(NotANumber)
    ensures Construct(PyComplex(re, Finite(1.0))) == Err(NotANumber)
    ensures Construct(PyComplex(re, NaN)) == Err(NotANumber)
  {
  }

  /** Truncation after the whole-number check: a value just below an
      integer is stored as the integer below it, so 2.99999999999 becomes 2
      and 0.99999999999 is "Out of range", while 10.00000000001 becomes 10. */
  lemma TruncationBelowInteger()
    ensures Construct(PyFloat(Finite(2.99999999999))) == Ok(2)
    ensures Abs(2.99999999999 - 2.0) > Tolerance
    ensures Construct(PyFloat(Finite(0.99999999999))) == Err(OutOfRange)
    ensures Construct(PyFloat(Finite(10.00000000001))) == Ok(10)
  {
    assert (2.99999999999).Floor == 2;
    assert (0.99999999999).Floor == 0;
    assert (10.00000000001).Floor == 10;
  }

  /** The intended check stores the nearest integer instead: 3 for
      2.99999999999 and 1 for 0.99999999999. */
  lemma RoundedCheckOnWitnesses()
    ensures CheckWholeInRangeRounded(2.99999999999) == Ok(3)
    ensures CheckWholeInRangeRounded(0.99999999999) == Ok(1)
  {
    assert (2.99999999999).Floor == 2;
    assert (0.99999999999).Floor == 0;
  }

  /** The two checks agree on every input at or less than the tolerance
      above an integer. */
  lemma RoundedAgreesAtOrAboveInteger(x: real)
    requires x - x.Floor as real < Tolerance
    ensures CheckWholeInRangeRounded(x) == CheckWholeInRange(x)
  {
    assert Round(x) == x.Floor;
    if x < 0.0 {
      assert Trunc(x) <= 0 && Round(x) <= 0;
    }
  }

  /** The two checks differ exactly on the inputs that pass the whole-number
      check from just below an integer and that one of them accepts. */
  lemma RoundedDiffersJustBelowInteger(x: real)
    ensures CheckWholeInRangeRounded(x) != CheckWholeInRange(x) <==>
      IsWholeNumber(x) && x - x.Floor as real >= Tolerance
      && (CheckWholeInRange(x).Ok? || CheckWholeInRangeRounded(x).Ok?)
  {
    if !IsWholeNumber(x) {
    } else if x - x.Floor as real < Tolerance {
      RoundedAgreesAtOrAboveInteger(x);
    } else if x >= 0.0 {
      assert Round(x) == x.Floor + 1;
      assert Trunc(x) == x.Floor;
    } else {
      assert Round(x) == x.Floor + 1;
      assert Trunc(x) == x.Floor + 1;
    }
  }

  /** `is_valid_value` as written raises the OverflowError of a huge int
      (here 2^1024 - 2^970) instead of answering false. */
  lemma IsValidValueRaisesOnHugeInt()
    ensures IsValidValue(PyInt(OverflowBound)) == Err(Overflow)
    ensures RaisedAs(Overflow) == OverflowError
    ensures !IsValidValueTotal(PyInt(OverflowBound))
  {
  }

  /** The test suite's padded string is accepted. */
  lemma PaddedStringExpectation()
    ensures Construct(PyStr("  5  ")) == Ok(5)
  {
    assert Decimal.StripLeading("  5  ", IsSpace) == "5  ";
    assert Decimal.StripTrailing("5  ", IsSpace) == "5";
    assert Decimal.NatToDecimal(5) == "5";
    ParseFloatOfNatural(5);
    assert ParseFloat("5") == Some(Finite(5.0));
    TruncOfInteger(5);
  }

  /** The test suite's string in scientific notation is accepted. */
  lemma ScientificStringExpectation()
    ensures Construct(PyStr("5e0")) == Ok(5)
  {
    Decimal.StripUnpadded("5e0", IsSpace);
    assert Decimal.FirstIndex("5e0", c => c == 'e' || c == 'E') == 1;
    assert Decimal.ParseMantissa("5") == Some(5.0);
    assert Decimal.ParseExponent("0") == Some(0);
    assert Decimal.ParseDecimal("5e0") == Some(5.0);
    assert Decimal.LowerAscii("5e0")[0] == '5';
    assert ParseFloat("5e0") == Some(Finite(5.0));
    TruncOfInteger(5);
  }

  /** The test suite's string with a decimal point is accepted. */
  lemma PointStringExpectation()
    ensures Construct(PyStr("3.0")) == Ok(3)
  {
    Decimal.StripUnpadded("3.0", IsSpace);
    assert Decimal.FirstIndex("3.0", c => c == 'e' || c == 'E') == 3;
    assert Decimal.FirstIndex("3.0", c => c == '.') == 1;
    assert Decimal.ParseMantissa("3.0") == Some(3.0);
    assert Decimal.ParseDecimal("3.0") == Some(3.0);
    assert Decimal.LowerAscii("3.0")[0] == '3';
    assert ParseFloat("3.0") == Some(Finite(3.0));
    TruncOfInteger(3);
  }

  /** The test suite's word is "Not a Number". */
  lemma WordStringExpectation()
    ensures Construct(PyStr("test")) == Err(NotANumber)
  {
    Decimal.StripUnpadded("test", IsSpace);
    assert Decimal.FirstIndex("test", c => c == 'e' || c == 'E') == 1;
    assert Decimal.FirstIndex("t", c => c == '.') == 1;
    assert Decimal.ParseMantissa("t") == None;
    assert ParseFloat("test") == None;
  }

  /** The values the arithmetic suite's labels announce: 3+4, 3-4, 3*4, 3/4,
      7//3, 7%3 and 2**3, none of them validated into the range. The lines
      labelled 7//3 and 7%3 in fact divide by 4; `MislabelledFloorDivision`
      states what they compute. */
  lemma ArithmeticSuiteExpectations()
    ensures Add(3, NumOperand(4)) == Ok(7)
    ensures Subtract(3, NumOperand(4)) == Ok(-1)
    ensures Multiply(3, NumOperand(4)) == Ok(12)
    ensures TrueDivide(3, NumOperand(4)) == Ok(0.75)
    ensures FloorDivide(7, NumOperand(3)) == Ok(2)
    ensures Modulo(7, NumOperand(3)) == Ok(1)
    ensures Pow(2, NumOperand(3)) == Ok(8)
    ensures Multiply(10, NumOperand(10)) == Ok(100)
  {
  }

  /** The lines labelled `Num(7) // Num(3)` and `Num(7) % Num(3)` compute
      with `Num(4)` on the right, giving 1 and 3. */
  lemma MislabelledFloorDivision()
    ensures FloorDivide(7, NumOperand(4)) == Ok(1)
    ensures Modulo(7, NumOperand(4)) == Ok(3)
  {
  }

  /** The suite labels `abs(Num(-5))` and `-Num(5)` with a check mark, but
      `Num(-5)` is rejected with "Out of range" before `abs` runs, so the block
      stops there and reports a failure; negation would fail too. The lines
      for `+` and `copy` never run; they would give 5. */
  lemma AbsAndNegationExpectationsFail()
    ensures Construct(PyInt(-5)) == Err(OutOfRange)
    ensures Negate(5) == Err(OutOfRange)
    ensures Positive(5) == Ok(5) && Copy(5) == Ok(5) && AbsNum(5) == Ok(5)
  {
  }

  /** The utility expectations: bounds 1 and 10, 5 valid, 0 and 11 not. */
  lemma UtilitySuiteExpectations()
    ensures GetMinValue() == 1 && GetMaxValue() == 10
    ensures IsValidValue(PyInt(5)) == Ok(true)
    ensures IsValidValue(PyInt(0)) == Ok(false)
    ensures IsValidValue(PyInt(11)) == Ok(false)
    ensures Construct(PyInt(1)) == Ok(1) && Construct(PyInt(10)) == Ok(10)
  {
  }
}

=== FILE: results.dfy ===
/** Outcomes shared by the three implementations of the bounded value type. */
module Results {

  /** The failures raised by construction and by the operators. Python raises
      `NotANumber`, `OutOfRange` and `TypeMismatch` all as TypeError, Java raises
      the first two as IllegalArgumentException, and JavaScript raises them as
      TypeError; callers tell them apart only by the message text. */
  datatype Error =
    | NotANumber                      // message "Not a Number"
    | OutOfRange                      // message "Out of range"
    | TypeMismatch(message: string)   // an operand that is not a Num
    | DivisionByZero
    | Overflow                        // Python: an int too large to convert to float

  datatype Option<+T> = None | Some(value: T)

  datatype Result<+T> = Ok(value: T) | Err(error: Error)
}
